=== FILE: README.md ===
# Xous kernel syscall rules and the log server's `LogString`, in Dafny

This project models two parts of the Xous microkernel repository.

- **The kernel's system-call layer** (`kernel/src/syscall.rs`). It covers the
  arms of `handle_inner` that carry their own logic:
  - `MapMemory` and `UnmapMemory`;
  - `IncreaseHeap` and `DecreaseHeap`;
  - `SwitchTo`, `Yield` and `WaitEvent`, with the `SWITCHTO_CALLER` slot they share;
  - `ReceiveMessage`;
  - the three server replies `ReturnScalar1`, `ReturnScalar2` and `ReturnMemory`;
  - the client send `TrySendMessage` (`send_message`).
- **The log server's `LogString`** (`examples/log-server/src/log_string.rs`).
  It is the append buffer a logging client lends to the server in a memory
  message.

The kernel's subsystems (`SystemServices`, `MemoryManager`) are not modelled
inside. A syscall sees them as a `Services` value with two parts:

- read-only lookups (connection to server index, server table, parent
  process, running threads);
- an oracle `respond` that decides, for every state-changing call
  (`map_range`, `unmap_page`, `activate_process_thread`,
  `remember_server_message`, ...), whether it succeeds and with what value.

Every syscall model returns the calls it made, in order, and its result.
"Nothing else happens" is then a statement about that list. A kernel panic
(`assert!`, `expect`, an arithmetic underflow) is the result `Panic`, not a
precondition.

Two calling patterns recur, and module `Sequencing` defines each once:

- `Chain` is the `?` chain, which stops at the first refused call.
- `KeepFirstError` is the unmapping loop, which makes every call and keeps the first error.

Modules:

| file | module | contents |
|---|---|---|
| optional.dfy | `Optional` | `Option` |
| kernel_types.dfy | `KernelTypes` | IDs, errors, messages, results, subsystem calls, `Services` |
| sequencing.dfy | `Sequencing` | `Chain`, `KeepFirstError`, the `step_by(PAGE_SIZE)` page walk |
| memory_calls.dfy | `MemoryCalls` | `MapMemory`, `UnmapMemory` |
| heap.dfy | `Heap` | `IncreaseHeap`, `DecreaseHeap` (as written and corrected) |
| switch_to.dfy | `SwitchToSlot` | `SwitchTo`, `Yield`, `WaitEvent` |
| replies.dfy | `Replies` | `receive_message`, `return_scalar`, `return_scalar2`, `return_memory` |
| send.dfy | `Send` | `send_message` (as written and corrected) |
| syscall.dfy | `Syscall` | `handle_inner` dispatch |
| log_string.dfy | `LogServer` | `LogString::from_message`, `write_str`, `Display` |

## Model

| member | source | states |
|---|---|---|
| Sequencing.Chain | kernel/src/syscall.rs:259-276 | A `?` chain makes a prefix of the calls. It fails exactly when some call is refused, and then it stops at, and reports, the first refusal. |
| Sequencing.KeepFirstError | kernel/src/syscall.rs:491-500 | The unmap loop's result is an error exactly when some call was refused, and that error is a refusal with every earlier call granted. |
| Sequencing.KeepFirstErrorIsChainError | kernel/src/syscall.rs:491-500 | Making every call and keeping the first error reports the same error as stopping at the first refusal. |
| Sequencing.PageWalk | kernel/src/syscall.rs:494 | `(from..end).step_by(PAGE_SIZE)` visits nothing exactly when the range is empty. Otherwise it starts at `from` and stays inside `[from, end)`. |
| Sequencing.PageWalkCovers | kernel/src/syscall.rs:494 | An address is visited exactly when it lies in `[from, end)` a whole number of pages from `from`. |
| MemoryCalls.MapMemoryCheck | kernel/src/syscall.rs:432-444 | `BadAddress` exactly when a process other than PID 1 asks for a virtual address at or above the user area end. Otherwise `BadAlignment` exactly when the size is not page-aligned. No other error. |
| MemoryCalls.MapMemory | kernel/src/syscall.rs:423-484 | A failed check is answered with the check's own error and no call at all. Otherwise `map_range` is called first, with an absent address passed as null, and a refused `map_range` ends the call with its error. After a granted `map_range`, the answer is the mapped range exactly when there is no physical address or every page was handed over. With a physical address the pages are handed to the user in walk order, and a refused hand-over panics. Without one, `map_range` is the only call and nothing panics. Success is a memory range of the requested size. |
| MemoryCalls.MapMemoryHandsEveryPage | kernel/src/syscall.rs:475-481 | After a successful mapping of given physical memory, a page is handed to the user exactly when it is a page step of the returned range. Without a physical address only `map_range` is called. |
| MemoryCalls.MapMemoryCheckOrder | kernel/src/syscall.rs:432-444 | PID 1 is never refused for its address. Any other process is refused with `BadAddress` for an address at or above the user area, before the size is checked. An unaligned size that passes the address check is `BadAlignment` with no call. |
| MemoryCalls.UnmapRange | kernel/src/syscall.rs:487-502 | `UnmapMemory`, also run for a forgotten buffer. An unaligned start is `BadAlignment` with no call. Every call unmaps a page inside the range. The result is `Ok` exactly when the start is aligned and every unmap was granted; otherwise it is the first refusal, and it never panics. Which pages are tried is `UnmapRangeTriesEveryPage`. |
| MemoryCalls.UnmapRangeTriesEveryPage | kernel/src/syscall.rs:487-502 | An unaligned start is refused with nothing unmapped. For an aligned start, every page-aligned address of the range is unmapped and nothing else. |
| MemoryCalls.UnmapRangeKeepsFirstError | kernel/src/syscall.rs:487-502 | The result is `Ok` exactly when the start is aligned and every unmap succeeded. Otherwise, for an aligned start, it is the first failure, although the later pages are still tried. |
| MemoryCalls.UnmapPages | kernel/src/syscall.rs:487-502 | The loop as written (one pass over the walk's addresses, first error kept aside) computes the same calls and result as the functional definition. |
| Heap.IncreaseHeap | kernel/src/syscall.rs:503-523 | Only an aligned growth within the maximum changes the heap, and only its size. A valid heap stays valid. The reservation starts at the old heap end and covers `delta`. A granted reservation answers its range; a refused one answers its own error, and the size stays grown. It never panics. |
| Heap.IncreaseHeapErrors | kernel/src/syscall.rs:503-523 | `BadAlignment` is checked before `OutOfMemory`. Both leave the heap untouched and make no call. Past the checks, success is exactly a granted reservation. |
| Heap.Shrink | kernel/src/syscall.rs:534-543 | The size drops by `delta`. The unmap calls are a prefix of the top pages. The result is `Ok` exactly when all of them were unmapped; an unmap failure panics (`expect`). |
| Heap.DecreaseHeapAsWritten | kernel/src/syscall.rs:524-544 | The written checks: unaligned gives `BadAlignment`; `size + delta > max` gives `OutOfMemory`; a `delta` larger than the size underflows. Past the checks, the size drops by `delta`, the unmap calls are a prefix of the top pages, and the result is `Ok` exactly when all of them were unmapped; an unmap failure panics. A valid heap stays valid. |
| Heap.DecreaseHeapAsWrittenMisjudges | kernel/src/syscall.rs:528-534 | A full heap of two pages cannot give back one page. An empty heap "gives back" a page and underflows. |
| Heap.DecreaseHeap | kernel/src/syscall.rs:524-544 | Corrected bound: more than the heap holds is `OutOfMemory` with nothing touched. Only an aligned shrink of at most the size changes the heap. A valid heap stays valid. |
| Heap.DecreaseHeapUnmapsTopPages | kernel/src/syscall.rs:537-542 | Every unmapped page lies between the new and the old heap end. The pages are exactly the page steps of that range. Success means all of them were unmapped. |
| Heap.ShrinkCallsCover | kernel/src/syscall.rs:537-542 | The pages a shrink gives back are exactly the page steps from the new heap end up to the old one. |
| Heap.DecreaseHeapAsWrittenAgrees | kernel/src/syscall.rs:524-544 | Whenever the written bound check lets an aligned shrink of at most the size through, the code as written does exactly what the corrected code does. So the unmapped-page facts of `DecreaseHeapUnmapsTopPages` hold for it too. |
| Heap.DecreaseHeapUndoesIncrease | kernel/src/syscall.rs:503-544 | Growing and then shrinking by the same amount restores the heap under the corrected bound. As written, the round trip restores the heap exactly when `size + 2*delta <= max`, and the shrink is refused with `OutOfMemory` otherwise. |
| SwitchToSlot.ResumeOr | kernel/src/syscall.rs:577-580 | An activation outcome becomes `ResumeProcess` when granted. Any refusal becomes `ProcessNotFound`. |
| SwitchToSlot.SwitchTo | kernel/src/syscall.rs:545-560 | A full slot panics. Otherwise the caller is remembered even when activation fails, exactly one activation is made, and its error passes through. |
| SwitchToSlot.Yield | kernel/src/syscall.rs:565-582 | Hosted, it is a no-op answering `Ok`. On bare metal an empty slot panics; otherwise the slot is emptied, its context activated, and a failure is `ProcessNotFound`. |
| SwitchToSlot.WaitEvent | kernel/src/syscall.rs:596-604 | A process with no entry panics. Otherwise the slot is cleared and the parent's context 0 is activated without resume. The answer is `ResumeProcess` exactly when that activation is granted, and `ProcessNotFound` otherwise. |
| SwitchToSlot.YieldReturnsToSwitchToCaller | kernel/src/syscall.rs:545-582 | On bare metal, a `Yield` after a `SwitchTo` activates exactly the `SwitchTo` caller and leaves the slot free for the next `SwitchTo`. |
| SwitchToSlot.SwitchToTwicePanics | kernel/src/syscall.rs:548-552 | A second `SwitchTo` with no `Yield`/`WaitEvent` between panics, whatever the first activation did. |
| SwitchToSlot.WaitEventFreesSlot | kernel/src/syscall.rs:596-604 | After a `WaitEvent` of a known process, a `SwitchTo` never panics, from any slot and whatever the activation did, and it remembers its own caller. |
| Replies.OwnedServer | kernel/src/syscall.rs:284-291 | The sender's connection must lead to a server table entry owned by the caller; otherwise `ServerNotFound`. |
| Replies.ReturnScalarWith | kernel/src/syscall.rs:280-316 | The ownership check fails exactly when no call is made. The first call takes the waiting message without a buffer, and a refused take ends the call with its own error. Success is `Ok`. |
| Replies.ReturnScalar | kernel/src/syscall.rs:280-316 | `return_scalar`: `ServerNotFound` with no call exactly when the sender's connection is not to a server of the caller. Otherwise the take comes first, and a refused take ends the call with its error. Success is `Ok`. Only the client waiting on that scalar message is given a result, which is `Scalar1(arg)`. |
| Replies.ReturnScalar2 | kernel/src/syscall.rs:318-354 | `return_scalar2`: the same ownership check and take, with a refused take ending the call with its error. Only the waiting scalar client is given a result, which is `Scalar2(arg1, arg2)`. |
| Replies.ReturnScalarDispatch | kernel/src/syscall.rs:292-315 | A scalar waiter is readied, switched to and given the answer, stopping at the first failure, and success means all three succeeded. Every other kind, none included, is `ProcessNotFound` with only the take done. |
| Replies.ReturnScalarWakesOnlyWaiter | kernel/src/syscall.rs:318-354 | Only the client waiting on that very scalar message gets a result. The result is `Scalar1(arg)` for `return_scalar` and `Scalar2(arg1, arg2)` for `return_scalar2`. |
| Replies.ReturnMemory | kernel/src/syscall.rs:198-278 | Same ownership check. The take passes the returned buffer, and a refused take ends the call with its own error. Success is `Ok`. It never panics. |
| Replies.ReturnMemoryDispatch | kernel/src/syscall.rs:210-277 | Borrowed memory is given back to the client's address and the client woken with `Ok`, stopping at the first failure. Moved memory is `Ok` with nothing more. Forgotten memory is unmapped page by page as in `UnmapMemory`. A scalar is `InternalError`; none is `ProcessNotFound`. |
| Replies.ReceiveMessage | kernel/src/syscall.rs:356-408 | A thread that is not running panics with nothing done. A refused connect passes its error on after that one call. An unknown `sid`, or a server owned by another process, is `ServerNotFound` after the connect. Only bare metal changes the slot, and only to empty. A returned message is the pending message of `sid`'s own server. |
| Replies.ReceiveMessageParks | kernel/src/syscall.rs:383-407 | With nothing pending the thread is parked. On bare metal the parent's context 0 is activated and the slot cleared. The answer is `ResumeProcess` exactly when that activation is granted, and `ProcessNotFound` otherwise. Hosted, the client gets `BlockedProcess` exactly when it could be switched away. |
| Replies.ReceiveMessageDelivers | kernel/src/syscall.rs:356-381 | A message comes back exactly when the running thread's connect is granted, `sid` is its own server and that server has a message pending. It is then handed out at once after the connect and the take, with the slot unchanged. |
| Send.ClientAddress | kernel/src/syscall.rs:27-32 | Memory messages remember their buffer address; scalars remember none. |
| Send.Translate | kernel/src/syscall.rs:37-92 | Scalars pass untouched with no call. A memory message makes its transfer call first and at most one more. Only memory-manager calls are made. The translation succeeds exactly when every call it made was granted; otherwise its error is that of the last call, the first one refused. |
| Send.TranslateKeepsMessage | kernel/src/syscall.rs:37-92 | A translated message keeps its kind, id, offset, valid length and size, and its buffer moves to the address the server got. Moves are sent, mutable borrows lent writable, borrows lent read-only, always the client's whole buffer. |
| Send.HandOver | kernel/src/syscall.rs:135-169 | Blocking on bare metal activates the server thread and answers the envelope exactly when that is granted, `ProcessNotFound` otherwise. Blocking hosted answers `BlockedProcess`, and non-blocking answers `Ok`. Those succeed exactly when every call is granted, end by giving the server its message, and otherwise fail with the error of the first refused call, the last one made. |
| Send.ReadyAndHandOver | kernel/src/syscall.rs:126-169 | The server thread is readied first. A refused ready hands thread `handBack` back and ends the call with its error. A granted one is followed by exactly `HandOver`'s calls and answer. Success means every call was granted. |
| Send.Deliver | kernel/src/syscall.rs:96-134 | Only blocking messages are remembered, with the sender and its client address. A thread is handed back only on failure. Delivery succeeds exactly when every call it made was granted. A refused connection lookup, remember or ready ends it with that call's error. Once all three are granted, the answer is `HandOver`'s for the envelope built from the server's connection and the remembered index. |
| Send.Enqueue | kernel/src/syscall.rs:170-194 | The message is queued first. Only a blocking bare-metal send clears the slot, answering `ResumeProcess`. A hosted blocking send answers `BlockedProcess`, a non-blocking one `Ok` with nothing else done. A failure follows granted calls and comes from the last one, which was refused: a refused activation is `ProcessNotFound`, any other refusal passes its own error through. |
| Send.SendMessageWith | kernel/src/syscall.rs:13-196 | An unknown connection is `ServerNotFound` with nothing done. A missing server panics. Only a blocking bare-metal send changes the slot. A handed-back thread always follows a failure, on the connection's server. |
| Send.SendMessageAsWritten | kernel/src/syscall.rs:105-133 | As written, a failed delivery puts the client's own thread on the server's idle list. |
| Send.SendMessageAsWrittenHandsBackClientThread | kernel/src/syscall.rs:105-133 | Concrete case: server thread 1 is taken, remembering fails, and client thread 3 is handed back instead of 1. The corrected send hands back 1. |
| Send.SendMessage | kernel/src/syscall.rs:94-133 | Corrected: a thread handed back is always the idle thread of the server the connection leads to, and only after a failure. |
| Send.SendMessageOutcomes | kernel/src/syscall.rs:135-194 | The outcome table of a successful send: a non-blocking send is `Ok`; blocking hosted is `BlockedProcess`; blocking bare metal is the translated message when a thread was idle, and `ResumeProcess` with the slot cleared when queued. Conversely, a send whose calls were all granted succeeds, given a parent for a queued blocking bare-metal sender. |
| Send.SendMessageRemembersClient | kernel/src/syscall.rs:105-173 | Every remembered or queued message carries the sending thread, the client's own buffer address and the translated message. |
| Syscall.HandleInnerWith | kernel/src/syscall.rs:419-651 | Frame facts of the dispatcher, whose `DecreaseHeap` and `TrySendMessage` arms are as written or corrected. Only the heap calls change the heap, and never its base or maximum. Of the modelled calls, only scheduling and IPC calls change the slot, and only `SwitchTo` fills it. A valid heap stays valid. A call reaching the `_ => panic!` arm panics with nothing done. Unmapping memory, growing the heap, the three replies and a mapping without a physical address never panic. What each arm answers is stated by the members it calls. |
| Syscall.HandleInner | kernel/src/syscall.rs:419-651 | `handle_inner` as written: an aligned shrink that the growth bound refuses is `OutOfMemory` with nothing done, and a failed send hands back the caller's own thread. |
| Syscall.HandleInnerCorrected | kernel/src/syscall.rs:524-544 | The dispatcher with both corrections: an aligned shrink is `OutOfMemory` exactly when it exceeds the heap, and otherwise lowers the size by `delta`. |
| Syscall.SwitchToThenYield | kernel/src/syscall.rs:545-582 | Through the dispatcher, `SwitchTo` then `Yield` on bare metal resumes the caller and returns the kernel state to where it was. |
| Syscall.IncreaseThenDecrease | kernel/src/syscall.rs:503-544 | Through the dispatcher as written, growing and then shrinking by the same amount restores the state exactly when the heap has room for twice `delta`. Otherwise the shrink is `OutOfMemory` and the heap stays grown. Through the corrected dispatcher the state is always restored. |
| LogServer.FromMessage | examples/log-server/src/log_string.rs:12-27 | The cursor starts at the message's valid length, or 0 without one. The view is exactly the bytes before the cursor. |
| LogServer.Put | examples/log-server/src/log_string.rs:38-41 | The byte loop stores the bytes of `s` from the cursor on, advancing it. It stops only at the end of the buffer, leaving the buffer length, the bytes around the written ones, the view and the published length unchanged. |
| LogServer.PutConcat | examples/log-server/src/log_string.rs:38-41 | Storing `a` and then `b` leaves the same buffer and cursor as storing `a + b`, whether or not either fits. |
| LogServer.WriteStr | examples/log-server/src/log_string.rs:36-48 | A write succeeds exactly when it fits. Then the cursor advances by the length of `s`, bytes `[old, new)` are `s`, and the bytes before and after are unchanged. The message's valid length is the new cursor, and the view is the old view followed by `s`. An overflowing write panics with the buffer filled to the end and neither view nor valid length refreshed. |
| LogServer.Display | examples/log-server/src/log_string.rs:30-34 | Display shows exactly the first `len` bytes. |
| LogServer.WriteStrConcat | examples/log-server/src/log_string.rs:36-48 | Writing `a` then `b` is writing `a + b` when both fit. |
| LogServer.ResumeAfterRelease | examples/log-server/src/log_string.rs:12-27 | After a write, the released message rebuilds the same `LogString`, so the next lender resumes at the same cursor. A message read and released unchanged comes back as it was. |
| LogServer.DisplayAfterWrite | examples/log-server/src/log_string.rs:12-47 | One write into a fresh message shows the previously valid bytes followed by the new text, and publishes their combined length. |

## Left out

- `ClaimInterrupt`, `ReturnToParentI`, `CreateThread`, `CreateProcess`,
  `CreateServer`, `TryConnect`, `TerminateProcess` and `Shutdown` are not
  in `SysCall`. All but `ReturnToParentI` forward to subsystems or
  architecture code that is not part of this model, and return that
  code's result. `ReturnToParentI` swaps the interrupt return pair for the
  `SWITCHTO_CALLER` pair and always answers `ResumeProcess`
  (kernel/src/syscall.rs:583-593). `Unhandled` stands only for the final
  `_ => panic!` arm.
- `ReturnToParentI` also takes the `SWITCHTO_CALLER` slot and panics when
  it is empty. That slot take is not modelled, so the statement that only
  scheduling and IPC calls change the slot is about the modelled calls.
- The subsystems themselves are an oracle. Their internal state changes
  (page tables, server queues, thread states) are visible only as the calls
  made. `take_available_thread` is read from the server table.
- MemoryCalls.MapMemory: the zeroing of main-RAM pages after a mapping with
  a physical address is left out. It is a memory write, not a call, and
  cannot fail. `hand_page_to_user` is an oracle call per page.
- MemoryCalls.MapMemory: the range returned is taken to have the requested
  size, at the address the oracle grants. The source returns the range
  `map_range` builds, whose code is not part of this model.
- Heap.IncreaseHeap: the range returned is taken to be `delta` bytes at the
  address the oracle grants. The source returns the range `reserve_range`
  builds, whose code is not part of this model.
- Machine-width integers are unbounded here:
  - the `usize` overflow of `virt + size` and `size + delta` is not modelled;
  - the `& 0xfff` and `& (PAGE_SIZE - 1)` masks are remainders by 4096.
- Heap.DecreaseHeapAsWritten models a build with overflow checks, where the
  underflow panics. A release build would instead wrap the size.
- Send.Translate: `MemoryRange::new` is a call that may fail (`NewRange`).
  The null destination pointers are implicit.
- Send.SendMessageWith: when `server_cid` fails, the taken server thread is
  never handed back. The model keeps this behaviour and does not list it as
  a finding, because it depends on `server_cid`, whose code is not part of
  this model.
- `Message::is_blocking` comes from the kernel API crate. It is taken as
  "blocking scalar, mutable borrow or borrow".
- Results of memory-manager calls (the returned range's address, a
  connection or sender index) are the oracle's values.
- LogString: UTF-8 validity is not modelled (the source never checks it) and
  bytes are plain bytes. `MemorySize::new(len).unwrap()` is taken to succeed.
  A write of nothing into an empty buffer may panic there, depending on
  `MemorySize`, which is not part of this model.
- LogServer.FromMessage requires the valid length to lie within the buffer.
  The source builds its first view without checking this, and a longer
  valid length would read outside the buffer.
- `println!` debug output is left out.

## Findings

| source | as written | input that shows it | evidently intended | confidence | as-written member | corrected member |
|---|---|---|---|---|---|---|
| kernel/src/syscall.rs:528-534 | `DecreaseHeap` reuses the growth check `mem_heap_size + delta > mem_heap_max` and then subtracts `delta` from the size | heap size 0x2000 = max 0x2000, delta 0x1000: `OutOfMemory`; heap size 0, max 0x2000, delta 0x1000: the size underflows | refuse only a `delta` larger than the current size | not executed | Heap.DecreaseHeapAsWrittenMisjudges | Heap.DecreaseHeapUndoesIncrease |
| kernel/src/syscall.rs:108-132 | after a failed `remember_server_message` or `ready_thread`, `return_available_thread(thread)` hands back the client's thread ID | server thread 1 idle, blocking scalar from client thread 3, remembering refused: thread 3 joins the server's idle list and thread 1 is lost | hand back `server_tid`, the thread just taken | not executed | Send.SendMessageAsWrittenHandsBackClientThread | Send.SendMessage |

=== FILE: heap.dfy ===
/** The `IncreaseHeap` and `DecreaseHeap` arms of `handle_inner`: the heap
    bookkeeping of the calling process (base, current size and maximum) and
    the memory-manager calls that follow it. */
module Heap {
  import opened Optional
  import opened KernelTypes
  import opened Sequencing

  /** `mem_heap_base`, `mem_heap_size` and `mem_heap_max` of a process. */
  datatype HeapInfo = HeapInfo(base: nat, size: nat, max: nat) {
    /** The heap never grows past its maximum. */
    predicate Valid() {
      size <= max
    }

    /** One past the last heap byte. */
    function End(): nat {
      base + size
    }
  }

  /** `IncreaseHeap(delta, flags)`: check alignment and the maximum, grow the
      heap, then reserve the new range. The size stays grown even when the
      reservation fails. */
  function IncreaseHeap(h: HeapInfo, delta: nat, flags: nat, ss: Services): (s: Step<HeapInfo>)
    ensures s.state.base == h.base && s.state.max == h.max
    ensures s.state != h ==> PageAligned(delta) && h.size + delta <= h.max && delta > 0
    ensures h.Valid() ==> s.state.Valid()
    ensures s.calls == [] <==> !PageAligned(delta) || h.size + delta > h.max
    ensures s.calls != [] ==> s.state.size == h.size + delta && s.calls == [ReserveRange(h.End(), delta, flags)]
    ensures s.result.Success? ==> s.calls != [] && s.result.value.MemoryRange? && s.result.value.range.size == delta
    ensures s.calls != [] ==>
      match ss.respond(s.calls[0])
      case Granted(addr) => s.result == Success(MemoryRange(MemRange(addr, delta)))
      case Refused(e) => s.result == Failure(e)
    ensures !s.result.Panic?
  {
    if !PageAligned(delta) then Step(h, [], Failure(BadAlignment))
    else if h.size + delta > h.max then Step(h, [], Failure(OutOfMemory))
    else
      var start := h.End();
      var grown := h.(size := h.size + delta);
      var c := ReserveRange(start, delta, flags);
      match ss.respond(c)
      case Refused(e) => Step(grown, [c], Failure(e))
      case Granted(addr) => Step(grown, [c], Success(MemoryRange(MemRange(addr, delta))))
  }

  /** The error codes of `IncreaseHeap`, in the order they are checked. */
  lemma IncreaseHeapErrors(h: HeapInfo, delta: nat, flags: nat, ss: Services)
    ensures !PageAligned(delta) ==> IncreaseHeap(h, delta, flags, ss) == Step(h, [], Failure(BadAlignment))
    ensures PageAligned(delta) && h.size + delta > h.max ==>
      IncreaseHeap(h, delta, flags, ss) == Step(h, [], Failure(OutOfMemory))
    ensures PageAligned(delta) && h.size + delta <= h.max ==>
      (IncreaseHeap(h, delta, flags, ss).result.Success? <==> ss.respond(ReserveRange(h.End(), delta, flags)).Granted?)
  {
  }

  /** The pages a shrink by `delta` gives back: the top `delta` bytes of the
      heap, one `unmap_page` per page. */
  function ShrinkCalls(h: HeapInfo, delta: nat): (calls: seq<Call>)
    requires delta <= h.size
    ensures forall c | c in calls :: c.UnmapPage? && h.End() - delta <= c.page < h.End()
  {
    UnmapCalls(PageWalk(h.End() - delta, h.End()))
  }

  /** Lower the size, then unmap the pages; a page that cannot be unmapped
      panics the kernel (`expect`). */
  function Shrink(h: HeapInfo, delta: nat, ss: Services): (s: Step<HeapInfo>)
    requires delta <= h.size
    ensures s.state == h.(size := h.size - delta)
    ensures s.calls <= ShrinkCalls(h, delta)
    ensures s.result == Success(Ok) <==> s.calls == ShrinkCalls(h, delta) && AllGranted(ss, s.calls)
    ensures !s.result.Failure?
  {
    var run := Chain(ss, ShrinkCalls(h, delta));
    Step(h.(size := h.size - delta), run.made, if run.failure.None? then Success(Ok) else Panic)
  }

  /** `DecreaseHeap(delta)` as written: its bound check is the one of
      `IncreaseHeap` (`size + delta > max`), so a full heap cannot shrink, and
      a `delta` larger than the size passes the check and underflows the size
      (a panic when overflow checks are on). */
  function DecreaseHeapAsWritten(h: HeapInfo, delta: nat, ss: Services): (s: Step<HeapInfo>)
    ensures !PageAligned(delta) ==> s == Step(h, [], Failure(BadAlignment))
    ensures PageAligned(delta) && h.size + delta > h.max ==> s == Step(h, [], Failure(OutOfMemory))
    ensures PageAligned(delta) && h.size + delta <= h.max && delta > h.size ==> s.result == Panic
    ensures PageAligned(delta) && h.size + delta <= h.max && delta <= h.size ==>
      && s.state == h.(size := h.size - delta)
      && s.calls <= ShrinkCalls(h, delta)
      && (s.result == Success(Ok) <==> s.calls == ShrinkCalls(h, delta) && AllGranted(ss, s.calls))
      && !s.result.Failure?
    ensures s.state.base == h.base && s.state.max == h.max
    ensures h.Valid() ==> s.state.Valid()
  {
    if !PageAligned(delta) then Step(h, [], Failure(BadAlignment))
    else if h.size + delta > h.max then Step(h, [], Failure(OutOfMemory))
    else if delta > h.size then Step(h, [], Panic)
    else Shrink(h, delta, ss)
  }

  /** A full heap cannot give back its last page, and an empty heap is
      "shrunk" past zero. */
  lemma DecreaseHeapAsWrittenMisjudges(ss: Services)
    ensures DecreaseHeapAsWritten(HeapInfo(0x2000_0000, 0x2000, 0x2000), 0x1000, ss).result == Failure(OutOfMemory)
    ensures DecreaseHeapAsWritten(HeapInfo(0x2000_0000, 0, 0x2000), 0x1000, ss).result == Panic
  {
  }

  /** `DecreaseHeap(delta)` with the bound it evidently means: refuse to give
      back more than the heap holds. */
  function DecreaseHeap(h: HeapInfo, delta: nat, ss: Services): (s: Step<HeapInfo>)
    ensures s.state.base == h.base && s.state.max == h.max
    ensures s.state != h ==> PageAligned(delta) && 0 < delta <= h.size
    ensures h.Valid() ==> s.state.Valid()
    ensures !PageAligned(delta) ==> s == Step(h, [], Failure(BadAlignment))
    ensures PageAligned(delta) && delta > h.size ==> s == Step(h, [], Failure(OutOfMemory))
    ensures PageAligned(delta) && delta <= h.size ==>
      s.state.size == h.size - delta && s.calls <= ShrinkCalls(h, delta)
  {
    if !PageAligned(delta) then Step(h, [], Failure(BadAlignment))
    else if delta > h.size then Step(h, [], Failure(OutOfMemory))
    else Shrink(h, delta, ss)
  }

  /** Every page `DecreaseHeap` unmaps lies inside the old heap, above the
      new end, and all of them are unmapped when the memory manager agrees. */
  lemma DecreaseHeapUnmapsTopPages(h: HeapInfo, delta: nat, ss: Services)
    requires PageAligned(delta) && delta <= h.size
    ensures forall c | c in DecreaseHeap(h, delta, ss).calls ::
      c.UnmapPage? && h.base <= DecreaseHeap(h, delta, ss).state.End() <= c.page < h.End()
    ensures forall a: nat :: UnmapPage(a) in ShrinkCalls(h, delta) <==> OnWalk(h.End() - delta, h.End(), a)
    ensures DecreaseHeap(h, delta, ss).result == Success(Ok) <==>
      DecreaseHeap(h, delta, ss).calls == ShrinkCalls(h, delta) && AllGranted(ss, ShrinkCalls(h, delta))
  {
    var s := DecreaseHeap(h, delta, ss);
    var calls := ShrinkCalls(h, delta);
    forall c | c in s.calls
      ensures c.UnmapPage? && h.base <= s.state.End() <= c.page < h.End()
    {
      var i :| 0 <= i < |s.calls| && s.calls[i] == c;
      assert c == calls[i];
    }
    ShrinkCallsCover(h, delta);
  }

  /** The pages a shrink gives back are exactly the page steps from the new
      end up to the old one. */
  lemma ShrinkCallsCover(h: HeapInfo, delta: nat)
    requires delta <= h.size
    ensures forall a: nat :: UnmapPage(a) in ShrinkCalls(h, delta) <==> OnWalk(h.End() - delta, h.End(), a)
  {
    forall a: nat ensures UnmapPage(a) in ShrinkCalls(h, delta) <==> OnWalk(h.End() - delta, h.End(), a) {
      UnmapCallsOfWalk(h.End() - delta, h.End(), a);
    }
  }

  /** Whenever the written bound check lets an aligned shrink of at most the
      size through, the code as written does exactly what the corrected one
      does: the same pages unmapped, the same size and the same result. */
  lemma DecreaseHeapAsWrittenAgrees(h: HeapInfo, delta: nat, ss: Services)
    requires PageAligned(delta) && delta <= h.size && h.size + delta <= h.max
    ensures DecreaseHeapAsWritten(h, delta, ss) == DecreaseHeap(h, delta, ss)
    ensures DecreaseHeapAsWritten(h, delta, ss).state.size == h.size - delta
  {
  }

  /** Growing and then shrinking by the same amount gives the heap back as it
      was. The written check re-applies the growth bound to the grown heap,
      so as written this works exactly when the heap has room for twice
      `delta`, and is refused otherwise. */
  lemma {:induction false} DecreaseHeapUndoesIncrease(h: HeapInfo, delta: nat, flags: nat, ss: Services)
    requires IncreaseHeap(h, delta, flags, ss).calls != []
    ensures DecreaseHeap(IncreaseHeap(h, delta, flags, ss).state, delta, ss).state == h
    ensures h.size + delta + delta > h.max ==>
      DecreaseHeapAsWritten(IncreaseHeap(h, delta, flags, ss).state, delta, ss).result == Failure(OutOfMemory)
    ensures h.size + delta + delta <= h.max ==>
      DecreaseHeapAsWritten(IncreaseHeap(h, delta, flags, ss).state, delta, ss).state == h
  {
    var grown := IncreaseHeap(h, delta, flags, ss).state;
    assert grown == h.(size := h.size + delta);
  }
}

=== FILE: kernel_types.dfy ===
/** Vocabulary of the kernel's syscall layer: identifiers, error codes, the
    syscall result, IPC messages, and the abstract interface to the kernel
    subsystems (SystemServices and MemoryManager) whose code is not modelled.

    The subsystems are seen through `Services`: a few read-only lookups, plus
    an oracle `respond` that decides, for every state-changing operation the
    syscall layer invokes, whether it fails (and with which error) or succeeds
    (and which number it yields). Each syscall model reports the operations it
    invoked, in order, so that "nothing else changes" is a statement about that
    list. */
module KernelTypes {
  import opened Optional

  type PID = nat
  type TID = nat
  /** Connection ID: a process's handle on a server. */
  type CID = nat
  /** Server ID (128 bits in the kernel). */
  type SID = nat
  /** Index of a server in the kernel's server table. */
  type SIdx = nat

  /** `PAGE_SIZE` of the memory manager: 4 KiB. */
  const PAGE_SIZE: nat := 4096

  /** `x & 0xfff == 0` (equivalently `x & (PAGE_SIZE - 1) == 0`) on an
      unsigned word. */
  predicate PageAligned(x: nat) {
    x % PAGE_SIZE == 0
  }

  /** Build-time and architecture parameters: `cfg!(baremetal)` and
      `arch::mem::USER_AREA_END`. */
  datatype Config = Config(baremetal: bool, userAreaEnd: nat)

  /** The error codes of `xous_kernel::Error` that this layer produces itself;
      `Other` stands for any code a subsystem may return. */
  datatype Error =
    | BadAlignment
    | BadAddress
    | OutOfMemory
    | ServerNotFound
    | ProcessNotFound
    | InternalError
    | Other(code: nat)

  /** `MemoryRange`: a start address and a length in bytes. */
  datatype MemRange = MemRange(addr: nat, size: nat)

  datatype MemoryMessage = MemoryMessage(id: nat, buf: MemRange, offset: Option<nat>, valid: Option<nat>)

  /** The payload of a scalar message (xous's `ScalarMessage`). */
  datatype ScalarPayload = ScalarPayload(id: nat, arg1: nat, arg2: nat, arg3: nat, arg4: nat)

  datatype Message =
    | Scalar(scalar: ScalarPayload)
    | BlockingScalar(scalar: ScalarPayload)
    | Move(memory: MemoryMessage)
    | MutableBorrow(memory: MemoryMessage)
    | Borrow(memory: MemoryMessage)
  {
    /** Whether the message lends or moves a memory buffer. */
    predicate IsMemory() {
      Move? || MutableBorrow? || Borrow?
    }

    /** `Message::is_blocking`: borrows and blocking scalars wait for a reply. */
    predicate IsBlocking() {
      BlockingScalar? || MutableBorrow? || Borrow?
    }
  }

  /** Who sent a message: the server's connection and the slot the server
      remembers the waiting client in. */
  datatype SenderID = SenderID(cid: CID, idx: nat)

  datatype Envelope = Envelope(sender: SenderID, body: Message)

  /** `xous_kernel::Result`: what a successful syscall hands back. */
  datatype KernelResult =
    | Ok
    | MemoryRange(range: MemRange)
    | ResumeProcess
    | BlockedProcess
    | Message(envelope: Envelope)
    | Scalar1(arg: nat)
    | Scalar2(arg1: nat, arg2: nat)

  /** `SysCallResult`, plus `Panic` for a kernel panic (a failed `assert!`,
      `expect` or arithmetic overflow check), after which nothing is returned. */
  datatype SysCallResult =
    | Success(value: KernelResult)
    | Failure(error: Error)
    | Panic

  /** What a server remembers about a message it has not answered yet. */
  datatype WaitingMessage =
    | NoMessage
    | ScalarMessage(pid: PID, tid: TID)
    | BorrowedMemory(clientPid: PID, clientTid: TID, serverAddr: nat, clientAddr: nat, len: nat)
    | MovedMemory
    | ForgetMemory(range: MemRange)

  /** The state-changing subsystem operations the syscall layer invokes. */
  datatype Call =
    | ReserveRange(start: nat, len: nat, flags: nat)
    | MapRange(phys: nat, virt: nat, size: nat, owner: PID, flags: nat)
    | UnmapPage(page: nat)
    | HandPageToUser(page: nat)
    | ActivateProcessThread(current: TID, pid: PID, ctx: TID, canResume: bool)
    | ReadyThread(pid: PID, tid: TID)
    | SwitchToThread(pid: PID, thread: Option<TID>)
    | SwitchFromThread(pid: PID, tid: TID)
    | SetThreadResult(pid: PID, tid: TID, result: KernelResult)
    | ReturnLentMemory(serverAddr: nat, tid: TID, clientPid: PID, clientTid: TID, clientAddr: nat, len: nat)
    | TakeWaitingMessage(sidx: SIdx, idx: nat, buf: Option<MemRange>)
    | SendMemory(addr: nat, target: PID, len: nat)
    | LendMemory(addr: nat, target: PID, len: nat, writable: bool)
    | NewRange(addr: nat, len: nat)
    | ServerCid(sidx: SIdx)
    | TakeAvailableThread(sidx: SIdx)
    | RememberServerMessage(sidx: SIdx, pid: PID, tid: TID, message: Message, returnTo: Option<nat>)
    | ReturnAvailableThread(sidx: SIdx, tid: TID)
    | QueueServerMessage(sidx: SIdx, pid: PID, tid: TID, message: Message, returnTo: Option<nat>)
    | ConnectToServer(sid: SID)
    | TakeNextMessage(sidx: SIdx, cid: CID)
    | ParkThread(sidx: SIdx, tid: TID)

  /** How a subsystem answers one call: success with a number (an address, a
      connection or an index, ignored by calls that yield nothing) or an error. */
  datatype CallOutcome = Granted(value: nat) | Refused(error: Error)

  /** A server-table entry as this layer reads it: its owner, the thread
      `take_available_thread` would hand out, the waiting messages by index,
      and the message `take_next_message` would hand out. */
  datatype Server = Server(pid: PID, available: Option<TID>, waiting: map<nat, WaitingMessage>, pending: Option<Envelope>)

  /** The subsystems as seen by the syscall layer. */
  datatype Services = Services(
    sidxOfCid: map<CID, SIdx>,      // sidx_from_cid
    sidxOfSid: map<SID, SIdx>,      // server_sidx
    servers: map<SIdx, Server>,     // server_from_sidx
    parentOf: map<PID, PID>,        // get_process(pid).ppid
    running: set<(PID, TID)>,       // thread_is_running
    respond: Call -> CallOutcome)

  /** What a syscall that keeps no state of its own does: the calls it made,
      in order, and its result. */
  datatype Reply = Reply(calls: seq<Call>, result: SysCallResult)

  /** The same for a syscall that updates model state `S`. */
  datatype Step<S> = Step(state: S, calls: seq<Call>, result: SysCallResult)

  /** The result of finishing with `error`, or with `value` when there is none. */
  function Finish(error: Option<Error>, value: KernelResult): (r: SysCallResult)
    ensures r.Success? <==> error.None?
    ensures r.Success? ==> r.value == value
    ensures r.Failure? ==> r.error == error.value
  {
    match error
    case None => Success(value)
    case Some(e) => Failure(e)
  }
}

=== FILE: log_string.dfy ===
/** The log server's `LogString`: a fixed-capacity byte buffer lent to the
    server in a memory message, written from the current cursor onwards,
    with the number of valid bytes published back into the message so the
    client sees how much was written. */
module LogServer {
  import opened Optional

  newtype byte = b: int | 0 <= b < 256

  /** The part of a lent memory message the buffer works on: the bytes of
      the buffer and its `valid` field. */
  datatype Lent = Lent(buf: seq<byte>, valid: Option<nat>)

  /** `raw_slice`, the string view `s`, the cursor `len` and the message's
      `valid` field (`msg_len`) as it currently stands. */
  datatype LogString = LogString(raw: seq<byte>, view: seq<byte>, len: nat, published: Option<nat>) {
    /** The cursor lies inside the buffer and the view is exactly the bytes
        before it. */
    predicate Valid() {
      len <= |raw| && view == raw[..len]
    }
  }

  /** The state `write_str` leaves behind: finished, or stopped by the
      out-of-bounds index panic with the buffer as far as it got. */
  datatype WriteOutcome = Written(ls: LogString) | OutOfBounds(ls: LogString)

  /** `LogString::from_message`: the cursor starts at the message's valid
      length, or 0 when it has none. A valid length beyond the buffer would
      make the initial view read outside it, so callers must not pass one. */
  function FromMessage(m: Lent): (ls: LogString)
    requires m.valid.Some? ==> m.valid.value <= |m.buf|
    ensures ls.Valid()
    ensures ls.raw == m.buf && ls.published == m.valid
    ensures m.valid.None? ==> ls.len == 0 && ls.view == []
    ensures m.valid.Some? ==> ls.len == m.valid.value && ls.view == m.buf[..m.valid.value]
  {
    var start := m.valid.GetOr(0);
    LogString(m.buf, m.buf[..start], start, m.valid)
  }

  /** What the client finds in its message once the server lets go of it. */
  function Release(ls: LogString): (m: Lent)
    ensures m.buf == ls.raw && m.valid == ls.published
  {
    Lent(ls.raw, ls.published)
  }

  /** The byte loop of `write_str`: store each byte at the cursor and advance
      it, stopping at the first byte that would land past the end. Only the
      buffer and the cursor change. */
  function Put(ls: LogString, s: seq<byte>): (r: LogString)
    requires ls.len <= |ls.raw|
    ensures |r.raw| == |ls.raw|
    ensures ls.len <= r.len <= |ls.raw| && r.len <= ls.len + |s|
    ensures r.len < ls.len + |s| ==> r.len == |ls.raw|
    ensures r.raw == ls.raw[..ls.len] + s[..r.len - ls.len] + ls.raw[r.len..]
    ensures r.view == ls.view && r.published == ls.published
    decreases |s|
  {
    if s == [] || ls.len == |ls.raw| then ls
    else Put(ls.(raw := ls.raw[ls.len := s[0]], len := ls.len + 1), s[1..])
  }

  /** `fmt::Write::write_str`: append `s` at the cursor, then refresh the view
      and publish the new length in the message. A write that does not fit
      panics on the first byte past the end; the bytes before it are already
      stored, the cursor sits at the end and neither the view nor the
      message's valid length has been refreshed. */
  function WriteStr(ls: LogString, s: seq<byte>): (r: WriteOutcome)
    requires ls.Valid()
    ensures r.Written? <==> ls.len + |s| <= |ls.raw|
    ensures |r.ls.raw| == |ls.raw|
    ensures r.Written? ==>
      && r.ls.Valid()
      && r.ls.len == ls.len + |s|
      && r.ls.raw[ls.len..r.ls.len] == s
      && r.ls.raw[..ls.len] == ls.raw[..ls.len]
      && r.ls.raw[r.ls.len..] == ls.raw[r.ls.len..]
      && r.ls.published == Some(r.ls.len)
      && r.ls.view == ls.view + s
    ensures r.OutOfBounds? ==>
      && r.ls.len == |ls.raw|
      && r.ls.raw == ls.raw[..ls.len] + s[..|ls.raw| - ls.len]
      && r.ls.view == ls.view
      && r.ls.published == ls.published
  {
    var p := Put(ls, s);
    if p.len < ls.len + |s| then OutOfBounds(p)
    else
      assert p.raw[ls.len..p.len] == s;
      assert p.raw[..p.len] == ls.view + s;
      Written(p.(view := p.raw[..p.len], published := Some(p.len)))
  }

  /** `fmt::Display::fmt`: the text shown is the current view. */
  function Display(ls: LogString): (text: seq<byte>)
    ensures ls.Valid() ==> text == ls.raw[..ls.len] && |text| == ls.len
  {
    ls.view
  }

  /** The byte loop storing `a` and then `b` stores `a + b`, whether or not
      either fits. */
  lemma {:induction false} PutConcat(ls: LogString, a: seq<byte>, b: seq<byte>)
    requires ls.len <= |ls.raw|
    ensures Put(Put(ls, a), b) == Put(ls, a + b)
    decreases |a|
  {
    if a == [] {
      assert a + b == b;
    } else if ls.len < |ls.raw| {
      assert (a + b)[0] == a[0] && (a + b)[1..] == a[1..] + b;
      PutConcat(ls.(raw := ls.raw[ls.len := a[0]], len := ls.len + 1), a[1..], b);
    }
  }

  /** The byte loop neither reads nor changes the view or the published
      length. */
  lemma PutFrame(ls: LogString, s: seq<byte>, view: seq<byte>, published: Option<nat>)
    requires ls.len <= |ls.raw|
    ensures Put(ls.(view := view, published := published), s) == Put(ls, s).(view := view, published := published)
  {
  }

  /** Writing `a` and then `b` is writing `a + b`, whenever the whole fits;
      `write!` with several pieces therefore builds the concatenation. */
  lemma {:induction false} WriteStrConcat(ls: LogString, a: seq<byte>, b: seq<byte>)
    requires ls.Valid() && ls.len + |a| + |b| <= |ls.raw|
    ensures WriteStr(ls, a).Written?
    ensures WriteStr(WriteStr(ls, a).ls, b) == WriteStr(ls, a + b)
  {
    var one := WriteStr(ls, a).ls;
    PutFrame(Put(ls, a), b, one.view, one.published);
    PutConcat(ls, a, b);
  }

  /** The server hands the buffer back after a write and the client lends it
      again: the new `LogString` resumes exactly where the last one stopped,
      and a message that is only read and released comes back unchanged. */
  lemma {:induction false} ResumeAfterRelease(ls: LogString, s: seq<byte>, m: Lent)
    requires ls.Valid()
    requires m.valid.Some? ==> m.valid.value <= |m.buf|
    ensures WriteStr(ls, s).Written? ==>
      var ms := Release(WriteStr(ls, s).ls);
      (ms.valid.Some? ==> ms.valid.value <= |ms.buf|) && FromMessage(ms) == WriteStr(ls, s).ls
    ensures Release(FromMessage(m)) == m
  {
  }

  /** What the log server shows after one write into a freshly lent message:
      the bytes that were already valid followed by the new text. */
  lemma {:induction false} DisplayAfterWrite(m: Lent, s: seq<byte>)
    requires m.valid.Some? ==> m.valid.value <= |m.buf|
    requires m.valid.GetOr(0) + |s| <= |m.buf|
    ensures WriteStr(FromMessage(m), s).Written?
    ensures Display(WriteStr(FromMessage(m), s).ls) == m.buf[..m.valid.GetOr(0)] + s
    ensures Release(WriteStr(FromMessage(m), s).ls).valid == Some(m.valid.GetOr(0) + |s|)
  {
  }
}

=== FILE: memory_calls.dfy ===
/** The `MapMemory` and `UnmapMemory` arms of `handle_inner`: the argument
    checks made before the memory manager is asked to do anything, and the
    page-by-page unmapping loop (shared with the `ForgetMemory` branch of
    `return_memory`). */
module MemoryCalls {
  import opened Optional
  import opened KernelTypes
  import opened Sequencing

  /** The argument checks of `MapMemory`, in the order they are made. */
  function MapMemoryCheck(cfg: Config, pid: PID, virt: Option<nat>, size: nat): (r: Option<Error>)
    ensures r == Some(BadAddress) <==> pid != 1 && virt.Some? && virt.value >= cfg.userAreaEnd
    ensures r == Some(BadAlignment) <==> (pid == 1 || virt.None? || virt.value < cfg.userAreaEnd) && !PageAligned(size)
    ensures r.None? || r == Some(BadAddress) || r == Some(BadAlignment)
  {
    // Only PID 1 may map above the user area.
    if pid != 1 && virt.Some? && virt.value >= cfg.userAreaEnd then Some(BadAddress)
    else if !PageAligned(size) then Some(BadAlignment)
    else None
  }

  /** The pages of a freshly mapped range handed to the user, one
      `hand_page_to_user` each, in the order of the page walk. */
  function HandCalls(range: MemRange): (calls: seq<Call>)
    ensures |calls| == |PageWalk(range.addr, range.addr + range.size)|
    ensures forall i | 0 <= i < |calls| :: calls[i] == HandPageToUser(PageWalk(range.addr, range.addr + range.size)[i])
    ensures forall c | c in calls :: c.HandPageToUser? && range.addr <= c.page < range.addr + range.size
  {
    var pages := PageWalk(range.addr, range.addr + range.size);
    seq(|pages|, i requires 0 <= i < |pages| => HandPageToUser(pages[i]))
  }

  /** A page is handed to the user exactly when it is a page step of the
      range from its start. */
  lemma HandCallsCover(range: MemRange, a: nat)
    ensures HandPageToUser(a) in HandCalls(range) <==> OnWalk(range.addr, range.addr + range.size, a)
  {
    var pages := PageWalk(range.addr, range.addr + range.size);
    var calls := HandCalls(range);
    PageWalkCovers(range.addr, range.addr + range.size, a);
    if HandPageToUser(a) in calls {
      var i :| 0 <= i < |calls| && calls[i] == HandPageToUser(a);
      assert pages[i] == a;
    }
    if a in pages {
      var i :| 0 <= i < |pages| && pages[i] == a;
      assert calls[i] == HandPageToUser(a);
    }
  }

  /** `MapMemory`: the checks, then one `map_range` call, with an absent
      address passed as the null pointer. A mapping of given physical memory
      then hands every page of the range to the user, and a page that cannot
      be handed over panics the kernel (`expect`). */
  function MapMemory(cfg: Config, ss: Services, pid: PID, phys: Option<nat>, virt: Option<nat>, size: nat, flags: nat): (r: Reply)
    ensures r.calls == [] <==> MapMemoryCheck(cfg, pid, virt, size).Some?
    ensures MapMemoryCheck(cfg, pid, virt, size).Some? ==> r == Reply([], Failure(MapMemoryCheck(cfg, pid, virt, size).value))
    ensures r.calls != [] && ss.respond(r.calls[0]).Refused? ==> r == Reply([r.calls[0]], Failure(ss.respond(r.calls[0]).error))
    ensures r.calls != [] && ss.respond(r.calls[0]).Granted? ==>
      var range := MemRange(ss.respond(r.calls[0]).value, size);
      (phys.None? || AllGranted(ss, HandCalls(range)) <==> r.result == Success(MemoryRange(range)))
    ensures r.calls != [] ==> r.calls[0] == MapRange(phys.GetOr(0), virt.GetOr(0), size, pid, flags)
    ensures phys.None? ==> |r.calls| <= 1 && !r.result.Panic?
    ensures r.result.Success? ==> r.result.value.MemoryRange? && r.result.value.range.size == size
    ensures r.result.Success? && phys.Some? ==>
      r.calls != [] && r.calls[1..] == HandCalls(r.result.value.range) && AllGranted(ss, r.calls[1..])
    ensures r.result.Panic? ==>
      && phys.Some? && r.calls != [] && ss.respond(r.calls[0]).Granted?
      && var range := MemRange(ss.respond(r.calls[0]).value, size);
         r.calls[1..] <= HandCalls(range) && !AllGranted(ss, HandCalls(range))
  {
    match MapMemoryCheck(cfg, pid, virt, size)
    case Some(e) => Reply([], Failure(e))
    case None =>
      var c := MapRange(phys.GetOr(0), virt.GetOr(0), size, pid, flags);
      match ss.respond(c)
      case Refused(e) => Reply([c], Failure(e))
      case Granted(addr) =>
        var range := MemRange(addr, size);
        if phys.None? then Reply([c], Success(MemoryRange(range)))
        else
          var run := Chain(ss, HandCalls(range));
          assert ([c] + run.made)[1..] == run.made;
          Reply([c] + run.made, if run.failure.None? then Success(MemoryRange(range)) else Panic)
  }

  /** A successful mapping of given physical memory has handed every page
      step of the returned range to the user, and nothing else; a mapping
      without one hands over nothing. */
  lemma MapMemoryHandsEveryPage(cfg: Config, ss: Services, pid: PID, phys: Option<nat>, virt: Option<nat>, size: nat, flags: nat)
    ensures
      var r := MapMemory(cfg, ss, pid, phys, virt, size, flags);
      r.result.Success? && phys.Some? ==>
        forall a: nat :: HandPageToUser(a) in r.calls <==>
          OnWalk(r.result.value.range.addr, r.result.value.range.addr + size, a)
    ensures phys.None? ==> forall c | c in MapMemory(cfg, ss, pid, phys, virt, size, flags).calls :: c.MapRange?
  {
    var r := MapMemory(cfg, ss, pid, phys, virt, size, flags);
    if r.result.Success? && phys.Some? {
      var range := r.result.value.range;
      assert r.calls == [r.calls[0]] + HandCalls(range);
      forall a: nat ensures HandPageToUser(a) in r.calls <==> OnWalk(range.addr, range.addr + size, a) {
        HandCallsCover(range, a);
      }
    }
  }

  /** PID 1 is never refused for its address; every other process is
      refused for an address at or above the user area, before the size is
      looked at. */
  lemma MapMemoryCheckOrder(cfg: Config, ss: Services, pid: PID, phys: Option<nat>, virt: Option<nat>, size: nat, flags: nat)
    ensures pid == 1 ==> MapMemoryCheck(cfg, pid, virt, size) != Some(BadAddress)
    ensures pid != 1 && virt.Some? && virt.value >= cfg.userAreaEnd ==>
              MapMemory(cfg, ss, pid, phys, virt, size, flags) == Reply([], Failure(BadAddress))
    ensures !PageAligned(size) ==> MapMemory(cfg, ss, pid, phys, virt, size, flags).result.Failure?
    ensures (pid == 1 || virt.None? || virt.value < cfg.userAreaEnd) && !PageAligned(size) ==>
      MapMemory(cfg, ss, pid, phys, virt, size, flags) == Reply([], Failure(BadAlignment))
  {
  }

  /** `UnmapMemory` (and `ForgetMemory`): refuse an unaligned start, then
      unmap every page of the range, keeping the first error. */
  function UnmapRange(ss: Services, range: MemRange): (r: Reply)
    ensures !PageAligned(range.addr) ==> r == Reply([], Failure(BadAlignment))
    ensures forall c | c in r.calls :: c.UnmapPage? && range.addr <= c.page < range.addr + range.size
    ensures r.result == Success(Ok) <==> PageAligned(range.addr) && AllGranted(ss, r.calls)
    ensures r.result.Failure? && PageAligned(range.addr) ==> exists i :: FirstRefusal(ss, r.calls, i, r.result.error)
    ensures r.result.Success? ==> r.result.value == Ok
    ensures !r.result.Panic?
  {
    if !PageAligned(range.addr) then Reply([], Failure(BadAlignment))
    else
      var calls := UnmapCalls(PageWalk(range.addr, range.addr + range.size));
      Reply(calls, Finish(KeepFirstError(ss, calls), Ok))
  }

  /** An aligned range has every one of its pages unmapped, whatever fails
      along the way; the result is the first failure, or `Ok` when there is
      none. An unaligned one is refused with nothing touched. */
  lemma UnmapRangeTriesEveryPage(ss: Services, range: MemRange)
    ensures !PageAligned(range.addr) ==> UnmapRange(ss, range) == Reply([], Failure(BadAlignment))
    ensures PageAligned(range.addr) ==>
      forall a: nat :: UnmapPage(a) in UnmapRange(ss, range).calls <==>
        range.addr <= a < range.addr + range.size && PageAligned(a)
    ensures forall c | c in UnmapRange(ss, range).calls :: c.UnmapPage?
  {
    if PageAligned(range.addr) {
      forall a: nat ensures UnmapPage(a) in UnmapRange(ss, range).calls <==>
        range.addr <= a < range.addr + range.size && PageAligned(a)
      {
        UnmapRangeHits(ss, range, a);
      }
    }
  }

  /** The result of unmapping an aligned range is `Ok` exactly when every
      page was unmapped, and otherwise the first failure, though the later
      pages are still tried. */
  lemma UnmapRangeKeepsFirstError(ss: Services, range: MemRange)
    ensures UnmapRange(ss, range).result == Success(Ok) <==>
      PageAligned(range.addr) && AllGranted(ss, UnmapRange(ss, range).calls)
    ensures UnmapRange(ss, range).result.Failure? && PageAligned(range.addr) ==>
      exists i :: FirstRefusal(ss, UnmapRange(ss, range).calls, i, UnmapRange(ss, range).result.error)
  {
  }

  /** From an aligned start, the page walk unmaps exactly the aligned
      addresses of the range. */
  lemma AlignedWalk(from: nat, end: nat, a: nat)
    requires PageAligned(from)
    ensures UnmapPage(a) in UnmapCalls(PageWalk(from, end)) <==> from <= a < end && PageAligned(a)
  {
    UnmapCallsOfWalk(from, end, a);
  }

  /** The loop of `UnmapMemory` as written: one pass over the addresses the
      page walk yields, with the first error kept aside. */
  method UnmapPages(ss: Services, range: MemRange) returns (r: Reply)
    ensures r == UnmapRange(ss, range)
  {
    if !PageAligned(range.addr) {
      r := Reply([], Failure(BadAlignment));
      UnmapRangeTriesEveryPage(ss, range);
      return;
    }
    var walk := PageWalk(range.addr, range.addr + range.size);
    var first: Option<Error> := None;
    for i := 0 to |walk|
      invariant first == KeepFirstError(ss, UnmapCalls(walk[..i]))
    {
      match ss.respond(UnmapPage(walk[i])) {
        case Refused(e) =>
          if first.None? {
            first := Some(e);
          }
        case Granted(_) =>
      }
      UnmapLoopStep(ss, walk, i);
    }
    UnmapRangeAligned(ss, range);
    assert walk[..|walk|] == walk;
    r := Reply(UnmapCalls(walk), Finish(first, Ok));
  }

  lemma UnmapRangeHits(ss: Services, range: MemRange, a: nat)
    requires PageAligned(range.addr)
    ensures UnmapPage(a) in UnmapRange(ss, range).calls <==> range.addr <= a < range.addr + range.size && PageAligned(a)
  {
    UnmapRangeAligned(ss, range);
    AlignedWalk(range.addr, range.addr + range.size, a);
  }

  lemma UnmapRangeAligned(ss: Services, range: MemRange)
    requires PageAligned(range.addr)
    ensures var calls := UnmapCalls(PageWalk(range.addr, range.addr + range.size));
      UnmapRange(ss, range) == Reply(calls, Finish(KeepFirstError(ss, calls), Ok))
  {
  }

  /** One turn of the unmapping loop extends the error kept aside by the
      outcome of the next page. */
  lemma UnmapLoopStep(ss: Services, walk: seq<nat>, i: nat)
    requires i < |walk|
    ensures KeepFirstError(ss, UnmapCalls(walk[..i + 1])) ==
      if KeepFirstError(ss, UnmapCalls(walk[..i])).Some? then KeepFirstError(ss, UnmapCalls(walk[..i]))
      else if ss.respond(UnmapPage(walk[i])).Refused? then Some(ss.respond(UnmapPage(walk[i])).error)
      else None
  {
    assert walk[..i + 1] == walk[..i] + [walk[i]];
    UnmapCallsSnoc(walk[..i], walk[i]);
    KeepFirstErrorSnoc(ss, UnmapCalls(walk[..i]), UnmapPage(walk[i]));
  }

  lemma UnmapCallsSnoc(pages: seq<nat>, addr: nat)
    ensures UnmapCalls(pages + [addr]) == UnmapCalls(pages) + [UnmapPage(addr)]
  {
  }

  lemma KeepFirstErrorSnoc(ss: Services, calls: seq<Call>, c: Call)
    ensures KeepFirstError(ss, calls + [c]) ==
      if KeepFirstError(ss, calls).Some? then KeepFirstError(ss, calls)
      else if ss.respond(c).Refused? then Some(ss.respond(c).error)
      else None
  {
    assert (calls + [c])[..|calls|] == calls;
  }
}

=== FILE: optional.dfy ===
/** Rust's `Option`, shared by the log server and the kernel model. */
module Optional {

  datatype Option<+T> = None | Some(value: T) {

    /** `unwrap_or`: the value when present, otherwise `default`. */
    function GetOr(default: T): T {
      match this
      case Some(v) => v
      case None => default
    }
  }
}

=== FILE: replies.dfy ===
/** The server side of IPC: `receive_message`, and the three ways a server
    answers a blocking message — `return_scalar`, `return_scalar2` and
    `return_memory`. Each answer first checks that the caller owns the
    server the sender ID names, then takes the waiting message and acts on
    its kind. */
module Replies {
  import opened Optional
  import opened KernelTypes
  import opened Sequencing
  import opened SwitchToSlot
  import MemoryCalls

  /** The server table index behind connection `cid`, when the table has an
      entry for it and that entry belongs to `pid`; `None` is the
      `ServerNotFound` of all three ownership checks. */
  function OwnedServer(ss: Services, pid: PID, cid: CID): (r: Option<SIdx>)
    ensures r.Some? <==>
      cid in ss.sidxOfCid && ss.sidxOfCid[cid] in ss.servers && ss.servers[ss.sidxOfCid[cid]].pid == pid
    ensures r.Some? ==> r.value == ss.sidxOfCid[cid] && r.value in ss.servers
  {
    if cid !in ss.sidxOfCid then None
    else
      var sidx := ss.sidxOfCid[cid];
      if sidx !in ss.servers || ss.servers[sidx].pid != pid then None
      else Some(sidx)
  }

  /** What `take_waiting_message(idx)` hands out when it does not fail. */
  function WaitingAt(server: Server, idx: nat): WaitingMessage {
    if idx in server.waiting then server.waiting[idx] else NoMessage
  }

  /** Wake client `(cpid, ctid)` with `value`: ready it, switch to it, set its
      result, stopping at the first failure. */
  function WakeCalls(cpid: PID, ctid: TID, value: KernelResult): seq<Call> {
    [ReadyThread(cpid, ctid), SwitchToThread(cpid, Some(ctid)), SetThreadResult(cpid, ctid, value)]
  }

  /** The shape shared by `return_scalar` and `return_scalar2`: only a client
      waiting on a scalar message is woken, with `value`. */
  function ReturnScalarWith(ss: Services, pid: PID, sender: SenderID, value: KernelResult): (r: Reply)
    ensures OwnedServer(ss, pid, sender.cid).None? <==> r.calls == []
    ensures OwnedServer(ss, pid, sender.cid).None? ==> r.result == Failure(ServerNotFound)
    ensures r.calls != [] ==> r.calls[0] == TakeWaitingMessage(OwnedServer(ss, pid, sender.cid).value, sender.idx, None)
    ensures r.calls != [] && ss.respond(r.calls[0]).Refused? ==> r == Reply([r.calls[0]], Failure(ss.respond(r.calls[0]).error))
    ensures r.result.Success? ==> r.result.value == Ok
  {
    match OwnedServer(ss, pid, sender.cid)
    case None => Reply([], Failure(ServerNotFound))
    case Some(sidx) =>
      var take := TakeWaitingMessage(sidx, sender.idx, None);
      match ss.respond(take)
      case Refused(e) => Reply([take], Failure(e))
      case Granted(_) =>
        match WaitingAt(ss.servers[sidx], sender.idx)
        case ScalarMessage(cpid, ctid) =>
          var run := Chain(ss, WakeCalls(cpid, ctid, value));
          Reply([take] + run.made, Finish(run.failure, Ok))
        case _ => Reply([take], Failure(ProcessNotFound))
  }

  /** `return_scalar(pid, tid, sender, arg)`. */
  function ReturnScalar(ss: Services, pid: PID, sender: SenderID, arg: nat): (r: Reply)
    ensures OwnedServer(ss, pid, sender.cid).None? <==> r == Reply([], Failure(ServerNotFound))
    ensures r.calls != [] ==> r.calls[0] == TakeWaitingMessage(OwnedServer(ss, pid, sender.cid).value, sender.idx, None)
    ensures r.calls != [] && ss.respond(r.calls[0]).Refused? ==> r == Reply([r.calls[0]], Failure(ss.respond(r.calls[0]).error))
    ensures r.result.Success? ==> r.result.value == Ok
    ensures forall c | c in r.calls && c.SetThreadResult? ::
      && OwnedServer(ss, pid, sender.cid).Some?
      && WaitingAt(ss.servers[OwnedServer(ss, pid, sender.cid).value], sender.idx) == ScalarMessage(c.pid, c.tid)
      && c.result == Scalar1(arg)
  {
    OnlyWaiterGetsResult(ss, pid, sender, Scalar1(arg));
    ReturnScalarWith(ss, pid, sender, Scalar1(arg))
  }

  /** `return_scalar2(pid, tid, sender, arg1, arg2)`. */
  function ReturnScalar2(ss: Services, pid: PID, sender: SenderID, arg1: nat, arg2: nat): (r: Reply)
    ensures OwnedServer(ss, pid, sender.cid).None? <==> r == Reply([], Failure(ServerNotFound))
    ensures r.calls != [] ==> r.calls[0] == TakeWaitingMessage(OwnedServer(ss, pid, sender.cid).value, sender.idx, None)
    ensures r.calls != [] && ss.respond(r.calls[0]).Refused? ==> r == Reply([r.calls[0]], Failure(ss.respond(r.calls[0]).error))
    ensures r.result.Success? ==> r.result.value == Ok
    ensures forall c | c in r.calls && c.SetThreadResult? ::
      && OwnedServer(ss, pid, sender.cid).Some?
      && WaitingAt(ss.servers[OwnedServer(ss, pid, sender.cid).value], sender.idx) == ScalarMessage(c.pid, c.tid)
      && c.result == Scalar2(arg1, arg2)
  {
    OnlyWaiterGetsResult(ss, pid, sender, Scalar2(arg1, arg2));
    ReturnScalarWith(ss, pid, sender, Scalar2(arg1, arg2))
  }

  /** The dispatch on the waiting kind: a scalar waiter is woken with the
      answer; every other kind, `None` included, is `ProcessNotFound` with
      nothing but the take done. */
  lemma {:induction false} ReturnScalarDispatch(ss: Services, pid: PID, sender: SenderID, value: KernelResult)
    requires OwnedServer(ss, pid, sender.cid).Some?
    requires ss.respond(TakeWaitingMessage(OwnedServer(ss, pid, sender.cid).value, sender.idx, None)).Granted?
    ensures
      var sidx := OwnedServer(ss, pid, sender.cid).value;
      var take := TakeWaitingMessage(sidx, sender.idx, None);
      var r := ReturnScalarWith(ss, pid, sender, value);
      match WaitingAt(ss.servers[sidx], sender.idx)
      case ScalarMessage(cpid, ctid) =>
        && r.calls[1..] <= WakeCalls(cpid, ctid, value)
        && (r.result == Success(Ok) <==> r.calls == [take] + WakeCalls(cpid, ctid, value) && AllGranted(ss, r.calls))
      case _ => r == Reply([take], Failure(ProcessNotFound))
  {
    var sidx := OwnedServer(ss, pid, sender.cid).value;
    var take := TakeWaitingMessage(sidx, sender.idx, None);
    var r := ReturnScalarWith(ss, pid, sender, value);
    match WaitingAt(ss.servers[sidx], sender.idx)
    case ScalarMessage(cpid, ctid) =>
      var run := Chain(ss, WakeCalls(cpid, ctid, value));
      assert r.calls == [take] + run.made;
      assert r.calls[1..] == run.made;
      if run.failure.None? {
        forall i | 0 <= i < |r.calls| ensures ss.respond(r.calls[i]).Granted? {
          if i > 0 {
            assert r.calls[i] == run.made[i - 1];
          }
        }
      }
      if r.result == Success(Ok) {
        assert run.failure.None?;
      }
    case _ =>
  }

  /** Only the client waiting on this very scalar message is ever given a
      result, and the result is the answer: `Scalar1(arg)` for
      `return_scalar`, `Scalar2(arg1, arg2)` for `return_scalar2`. */
  lemma {:induction false} ReturnScalarWakesOnlyWaiter(ss: Services, pid: PID, sender: SenderID, arg1: nat, arg2: nat)
    ensures forall c | c in ReturnScalar(ss, pid, sender, arg1).calls && c.SetThreadResult? ::
      && OwnedServer(ss, pid, sender.cid).Some?
      && WaitingAt(ss.servers[OwnedServer(ss, pid, sender.cid).value], sender.idx) == ScalarMessage(c.pid, c.tid)
      && c.result == Scalar1(arg1)
    ensures forall c | c in ReturnScalar2(ss, pid, sender, arg1, arg2).calls && c.SetThreadResult? ::
      && OwnedServer(ss, pid, sender.cid).Some?
      && WaitingAt(ss.servers[OwnedServer(ss, pid, sender.cid).value], sender.idx) == ScalarMessage(c.pid, c.tid)
      && c.result == Scalar2(arg1, arg2)
  {
    OnlyWaiterGetsResult(ss, pid, sender, Scalar1(arg1));
    OnlyWaiterGetsResult(ss, pid, sender, Scalar2(arg1, arg2));
  }

  lemma OnlyWaiterGetsResult(ss: Services, pid: PID, sender: SenderID, value: KernelResult)
    ensures forall c | c in ReturnScalarWith(ss, pid, sender, value).calls && c.SetThreadResult? ::
      && OwnedServer(ss, pid, sender.cid).Some?
      && WaitingAt(ss.servers[OwnedServer(ss, pid, sender.cid).value], sender.idx) == ScalarMessage(c.pid, c.tid)
      && c.result == value
  {
    var r := ReturnScalarWith(ss, pid, sender, value);
    forall c | c in r.calls && c.SetThreadResult?
      ensures OwnedServer(ss, pid, sender.cid).Some?
      ensures WaitingAt(ss.servers[OwnedServer(ss, pid, sender.cid).value], sender.idx) == ScalarMessage(c.pid, c.tid)
      ensures c.result == value
    {
      var sidx := OwnedServer(ss, pid, sender.cid).value;
      var w := WaitingAt(ss.servers[sidx], sender.idx);
      assert w.ScalarMessage? && c in WakeCalls(w.pid, w.tid, value);
    }
  }

  /** `return_memory(pid, tid, sender, buf)`. */
  function ReturnMemory(ss: Services, pid: PID, tid: TID, sender: SenderID, buf: MemRange): (r: Reply)
    ensures OwnedServer(ss, pid, sender.cid).None? <==> r.calls == []
    ensures OwnedServer(ss, pid, sender.cid).None? ==> r.result == Failure(ServerNotFound)
    ensures r.calls != [] ==> r.calls[0] == TakeWaitingMessage(OwnedServer(ss, pid, sender.cid).value, sender.idx, Some(buf))
    ensures r.calls != [] && ss.respond(r.calls[0]).Refused? ==> r == Reply([r.calls[0]], Failure(ss.respond(r.calls[0]).error))
    ensures r.result.Success? ==> r.result.value == Ok
    ensures !r.result.Panic?
  {
    match OwnedServer(ss, pid, sender.cid)
    case None => Reply([], Failure(ServerNotFound))
    case Some(sidx) =>
      var take := TakeWaitingMessage(sidx, sender.idx, Some(buf));
      match ss.respond(take)
      case Refused(e) => Reply([take], Failure(e))
      case Granted(_) =>
        match WaitingAt(ss.servers[sidx], sender.idx)
        case BorrowedMemory(cpid, ctid, serverAddr, clientAddr, len) =>
          var run := Chain(ss, [ReturnLentMemory(serverAddr, tid, cpid, ctid, clientAddr, len)] + WakeCalls(cpid, ctid, Ok));
          Reply([take] + run.made, Finish(run.failure, Ok))
        case MovedMemory => Reply([take], Success(Ok))
        case ForgetMemory(range) =>
          var unmap := MemoryCalls.UnmapRange(ss, range);
          Reply([take] + unmap.calls, unmap.result)
        case ScalarMessage(_, _) => Reply([take], Failure(InternalError))
        case NoMessage => Reply([take], Failure(ProcessNotFound))
  }

  /** The dispatch of `return_memory` on the waiting kind. */
  lemma {:induction false} ReturnMemoryDispatch(ss: Services, pid: PID, tid: TID, sender: SenderID, buf: MemRange)
    requires OwnedServer(ss, pid, sender.cid).Some?
    requires ss.respond(TakeWaitingMessage(OwnedServer(ss, pid, sender.cid).value, sender.idx, Some(buf))).Granted?
    ensures
      var sidx := OwnedServer(ss, pid, sender.cid).value;
      var take := TakeWaitingMessage(sidx, sender.idx, Some(buf));
      var r := ReturnMemory(ss, pid, tid, sender, buf);
      match WaitingAt(ss.servers[sidx], sender.idx)
      case MovedMemory => r == Reply([take], Success(Ok))
      case ScalarMessage(_, _) => r == Reply([take], Failure(InternalError))
      case NoMessage => r == Reply([take], Failure(ProcessNotFound))
      case ForgetMemory(range) => r == Reply([take] + MemoryCalls.UnmapRange(ss, range).calls, MemoryCalls.UnmapRange(ss, range).result)
      case BorrowedMemory(cpid, ctid, serverAddr, clientAddr, len) =>
        && |r.calls| >= 2
        && r.calls[1] == ReturnLentMemory(serverAddr, tid, cpid, ctid, clientAddr, len)
        && r.calls[2..] <= WakeCalls(cpid, ctid, Ok)
        && (r.result == Success(Ok) <==> |r.calls| == 5 && AllGranted(ss, r.calls))
  {
  }

  /** Server `sid` exists and belongs to process `pid`. */
  predicate OwnsServer(ss: Services, pid: PID, sid: SID) {
    sid in ss.sidxOfSid && ss.sidxOfSid[sid] in ss.servers && ss.servers[ss.sidxOfSid[sid]].pid == pid
  }

  /** `receive_message(pid, tid, sid)`: hand out a pending message at once,
      or park the thread and leave. */
  function ReceiveMessage(cfg: Config, slot: Slot, ss: Services, pid: PID, tid: TID, sid: SID): (s: Step<Slot>)
    ensures (pid, tid) !in ss.running ==> s == Step(slot, [], Panic)
    ensures s.state != slot ==> cfg.baremetal && s.state.None?
    ensures s.result.Success? ==> s.result.value.Message? || s.result.value == ResumeProcess || s.result.value == BlockedProcess
    ensures (pid, tid) in ss.running && ss.respond(ConnectToServer(sid)).Refused? ==>
      s == Step(slot, [ConnectToServer(sid)], Failure(ss.respond(ConnectToServer(sid)).error))
    ensures (pid, tid) in ss.running && ss.respond(ConnectToServer(sid)).Granted? && !OwnsServer(ss, pid, sid) ==>
      s == Step(slot, [ConnectToServer(sid)], Failure(ServerNotFound))
    ensures s.result.Success? && s.result.value.Message? ==>
      OwnsServer(ss, pid, sid) && ss.servers[ss.sidxOfSid[sid]].pending == Some(s.result.value.envelope)
  {
    if (pid, tid) !in ss.running then Step(slot, [], Panic)
    else
      var connect := ConnectToServer(sid);
      match ss.respond(connect)
      case Refused(e) => Step(slot, [connect], Failure(e))
      case Granted(cid) =>
        if !OwnsServer(ss, pid, sid) then
          Step(slot, [connect], Failure(ServerNotFound))
        else
          var sidx := ss.sidxOfSid[sid];
          var take := TakeNextMessage(sidx, cid);
          match ss.servers[sidx].pending
          case Some(envelope) => Step(slot, [connect, take], Success(Message(envelope)))
          case None =>
            var park := ParkThread(sidx, tid);
            if cfg.baremetal then
              if pid !in ss.parentOf then Step(None, [connect, take, park], Panic)
              else
                var activate := ActivateProcessThread(tid, ss.parentOf[pid], 0, false);
                Step(None, [connect, take, park, activate], ResumeOr(ss.respond(activate)))
            else
              var away := SwitchFromThread(pid, tid);
              match ss.respond(away)
              case Refused(e) => Step(slot, [connect, take, park, away], Failure(e))
              case Granted(_) => Step(slot, [connect, take, park, away], Success(BlockedProcess))
  }

  /** With no pending message the thread is parked; on bare metal the
      parent's context 0 is activated and the switch-to slot cleared, while
      a hosted kernel reports `BlockedProcess`. */
  lemma ReceiveMessageParks(cfg: Config, slot: Slot, ss: Services, pid: PID, tid: TID, sid: SID)
    requires (pid, tid) in ss.running && ss.respond(ConnectToServer(sid)).Granted?
    requires OwnsServer(ss, pid, sid) && ss.servers[ss.sidxOfSid[sid]].pending.None?
    ensures ParkThread(ss.sidxOfSid[sid], tid) in ReceiveMessage(cfg, slot, ss, pid, tid, sid).calls
    ensures cfg.baremetal && pid in ss.parentOf ==>
      && ReceiveMessage(cfg, slot, ss, pid, tid, sid).state.None?
      && ActivateProcessThread(tid, ss.parentOf[pid], 0, false) in ReceiveMessage(cfg, slot, ss, pid, tid, sid).calls
      && (ReceiveMessage(cfg, slot, ss, pid, tid, sid).result == Success(ResumeProcess) <==>
          ss.respond(ActivateProcessThread(tid, ss.parentOf[pid], 0, false)).Granted?)
      && (ReceiveMessage(cfg, slot, ss, pid, tid, sid).result.Failure? ==>
          ReceiveMessage(cfg, slot, ss, pid, tid, sid).result.error == ProcessNotFound)
    ensures !cfg.baremetal ==>
      && ReceiveMessage(cfg, slot, ss, pid, tid, sid).state == slot
      && (ReceiveMessage(cfg, slot, ss, pid, tid, sid).result == Success(BlockedProcess) <==>
          ss.respond(SwitchFromThread(pid, tid)).Granted?)
  {
  }

  /** A message comes back exactly when the running thread's connect is
      granted, `sid` is its own server and that server has one pending; it
      is then handed out at once after the connect and the take, with the
      slot left alone. */
  lemma ReceiveMessageDelivers(cfg: Config, slot: Slot, ss: Services, pid: PID, tid: TID, sid: SID)
    ensures
      var s := ReceiveMessage(cfg, slot, ss, pid, tid, sid);
      s.result.Success? && s.result.value.Message? <==>
        (pid, tid) in ss.running && ss.respond(ConnectToServer(sid)).Granted? &&
        OwnsServer(ss, pid, sid) && ss.servers[ss.sidxOfSid[sid]].pending.Some?
    ensures
      (pid, tid) in ss.running && ss.respond(ConnectToServer(sid)).Granted? &&
      OwnsServer(ss, pid, sid) && ss.servers[ss.sidxOfSid[sid]].pending.Some? ==>
        var cid := ss.respond(ConnectToServer(sid)).value;
        ReceiveMessage(cfg, slot, ss, pid, tid, sid) ==
          Step(slot, [ConnectToServer(sid), TakeNextMessage(ss.sidxOfSid[sid], cid)],
               Success(Message(ss.servers[ss.sidxOfSid[sid]].pending.value)))
  {
  }
}

=== FILE: send.dfy ===
/** The client side of IPC: `send_message`. The message is translated into
    the server's address space, then either handed straight to an idle server
    thread or queued; what the syscall returns depends on whether the message
    blocks and on whether the kernel runs on bare metal. */
module Send {
  import opened Optional
  import opened KernelTypes
  import opened Sequencing
  import opened SwitchToSlot

  /** The address of the client's buffer, remembered so that a lent buffer
      can be given back later; scalars have none. */
  function ClientAddress(m: Message): (a: Option<nat>)
    ensures a.Some? <==> m.IsMemory()
    ensures a.Some? ==> a.value == m.memory.buf.addr
  {
    match m
    case Move(mm) => Some(mm.buf.addr)
    case MutableBorrow(mm) => Some(mm.buf.addr)
    case Borrow(mm) => Some(mm.buf.addr)
    case _ => None
  }

  /** The outcome of translating a message: the calls made, the error that
      stopped the translation (if any), and the translated message. */
  datatype Translation = Translation(calls: seq<Call>, failure: Option<Error>, message: Message)

  /** The memory-manager call that brings a memory message's buffer into the
      server process: moved, lent writable, or lent read-only. */
  function Transfer(m: Message, serverPid: PID): Call
    requires m.IsMemory()
  {
    var buf := m.memory.buf;
    match m
    case Move(_) => SendMemory(buf.addr, serverPid, buf.size)
    case MutableBorrow(_) => LendMemory(buf.addr, serverPid, buf.size, true)
    case Borrow(_) => LendMemory(buf.addr, serverPid, buf.size, false)
  }

  /** The same message with its buffer at `addr` in the server. */
  function Relocate(m: Message, addr: nat): (r: Message)
    requires m.IsMemory()
    ensures r.IsMemory()
  {
    var mm := m.memory;
    var moved := MemoryMessage(mm.id, MemRange(addr, mm.buf.size), mm.offset, mm.valid);
    match m
    case Move(_) => Move(moved)
    case MutableBorrow(_) => MutableBorrow(moved)
    case Borrow(_) => Borrow(moved)
  }

  /** Translate a message from the client to the server process. */
  function Translate(ss: Services, m: Message, serverPid: PID): (t: Translation)
    ensures !m.IsMemory() ==> t == Translation([], None, m)
    ensures m.IsMemory() ==> 0 < |t.calls| <= 2 && t.calls[0] == Transfer(m, serverPid)
    ensures forall c | c in t.calls :: c.SendMemory? || c.LendMemory? || c.NewRange?
    ensures t.failure.None? <==> AllGranted(ss, t.calls)
    ensures t.failure.Some? ==> FirstRefusal(ss, t.calls, |t.calls| - 1, t.failure.value)
  {
    if !m.IsMemory() then Translation([], None, m)
    else
      var transfer := Transfer(m, serverPid);
      match ss.respond(transfer)
      case Refused(e) => Translation([transfer], Some(e), m)
      case Granted(addr) =>
        var range := NewRange(addr, m.memory.buf.size);
        match ss.respond(range)
        case Refused(e) =>
          assert [transfer, range][1] == range;
          Translation([transfer, range], Some(e), m)
        case Granted(_) => Translation([transfer, range], None, Relocate(m, addr))
  }

  /** Two messages are the same message in two address spaces: same kind,
      and for memory messages the same id, offset, valid length and buffer
      length; scalars are identical. */
  predicate SameMessage(m: Message, n: Message) {
    match m
    case Scalar(_) => n == m
    case BlockingScalar(_) => n == m
    case Move(a) => n.Move? && SameMemory(a, n.memory)
    case MutableBorrow(a) => n.MutableBorrow? && SameMemory(a, n.memory)
    case Borrow(a) => n.Borrow? && SameMemory(a, n.memory)
  }

  predicate SameMemory(a: MemoryMessage, b: MemoryMessage) {
    a.id == b.id && a.offset == b.offset && a.valid == b.valid && a.buf.size == b.buf.size
  }

  /** A successful translation keeps everything but the buffer address, which
      becomes the one the memory manager picked in the server; moves are
      sent, mutable borrows lent writable, borrows lent read-only. */
  lemma TranslateKeepsMessage(ss: Services, m: Message, serverPid: PID)
    ensures Translate(ss, m, serverPid).failure.None? ==> SameMessage(m, Translate(ss, m, serverPid).message)
    ensures Translate(ss, m, serverPid).failure.None? && m.IsMemory() ==>
      Translate(ss, m, serverPid).message.memory.buf.addr == ss.respond(Transfer(m, serverPid)).value
    ensures m.Move? ==> Transfer(m, serverPid).SendMemory?
    ensures m.MutableBorrow? ==> Transfer(m, serverPid).LendMemory? && Transfer(m, serverPid).writable
    ensures m.Borrow? ==> Transfer(m, serverPid).LendMemory? && !Transfer(m, serverPid).writable
    ensures m.IsMemory() ==> Transfer(m, serverPid).addr == m.memory.buf.addr && Transfer(m, serverPid).len == m.memory.buf.size
  {
  }

  /** The hand-over to a woken server thread, after the server thread has
      been readied, by kind of send: a blocking send on bare metal switches
      straight to the server; a blocking hosted send blocks the client; a
      non-blocking one sets the server's result and returns `Ok`. */
  function HandOver(cfg: Config, ss: Services, pid: PID, thread: TID, serverPid: PID, serverTid: TID,
                    envelope: Envelope, blocking: bool): (r: Reply)
    ensures blocking && cfg.baremetal ==>
      r.calls == [ActivateProcessThread(thread, serverPid, serverTid, false)]
      && (r.result == Success(Message(envelope)) <==> ss.respond(r.calls[0]).Granted?)
      && (r.result.Failure? ==> r.result.error == ProcessNotFound)
    ensures blocking && !cfg.baremetal && r.result.Success? ==> r.result.value == BlockedProcess
    ensures !blocking && r.result.Success? ==> r.result.value == Ok
    ensures !(blocking && cfg.baremetal) ==> (r.result.Success? <==> AllGranted(ss, r.calls))
    ensures !(blocking && cfg.baremetal) && r.result.Success? ==>
      Last(r.calls) == Some(SetThreadResult(serverPid, serverTid, Message(envelope)))
    ensures !(blocking && cfg.baremetal) && r.result.Failure? ==>
      FirstRefusal(ss, r.calls, |r.calls| - 1, r.result.error)
    ensures !r.result.Panic?
    ensures forall c | c in r.calls :: c.ActivateProcessThread? || c.SwitchFromThread? || c.SwitchToThread? || c.SetThreadResult?
  {
    var deliver := SetThreadResult(serverPid, serverTid, Message(envelope));
    if blocking && cfg.baremetal then
      var activate := ActivateProcessThread(thread, serverPid, serverTid, !blocking);
      Reply([activate], if ss.respond(activate).Granted? then Success(Message(envelope)) else Failure(ProcessNotFound))
    else if blocking then
      var run := Chain(ss, [SwitchFromThread(pid, thread), SwitchToThread(serverPid, Some(serverTid)), deliver]);
      Reply(run.made, Finish(run.failure, BlockedProcess))
    else if cfg.baremetal then
      var run := Chain(ss, [deliver]);
      Reply(run.made, Finish(run.failure, Ok))
    else
      var run := Chain(ss, [SwitchToThread(serverPid, Some(serverTid)), deliver]);
      Reply(run.made, Finish(run.failure, Ok))
  }

  function Last(calls: seq<Call>): Option<Call> {
    if calls == [] then None else Some(calls[|calls| - 1])
  }

  /** Ready the server thread and hand over. When readying fails, thread
      `handBack` is returned to the server's idle list. */
  function ReadyAndHandOver(cfg: Config, ss: Services, pid: PID, thread: TID, sidx: SIdx, serverPid: PID, serverTid: TID,
                            envelope: Envelope, blocking: bool, handBack: TID): (r: Reply)
    ensures r.calls != [] && r.calls[0] == ReadyThread(serverPid, serverTid)
    ensures ss.respond(r.calls[0]).Refused? ==>
      r == Reply([r.calls[0], ReturnAvailableThread(sidx, handBack)], Failure(ss.respond(r.calls[0]).error))
    ensures ss.respond(r.calls[0]).Granted? ==>
      var over := HandOver(cfg, ss, pid, thread, serverPid, serverTid, envelope, blocking);
      r.calls == [r.calls[0]] + over.calls && r.result == over.result
    ensures r.result.Success? <==> AllGranted(ss, r.calls)
    ensures forall c | c in r.calls && c.ReturnAvailableThread? :: c == ReturnAvailableThread(sidx, handBack) && r.result.Failure?
    ensures forall c | c in r.calls :: !c.RememberServerMessage? && !c.QueueServerMessage?
  {
    var ready := ReadyThread(serverPid, serverTid);
    match ss.respond(ready)
    case Refused(e) =>
      assert [ready, ReturnAvailableThread(sidx, handBack)][0] == ready;
      Reply([ready, ReturnAvailableThread(sidx, handBack)], Failure(e))
    case Granted(_) =>
      var over := HandOver(cfg, ss, pid, thread, serverPid, serverTid, envelope, blocking);
      AllGrantedAppend(ss, [ready], over.calls);
      Reply([ready] + over.calls, over.result)
  }

  /** Deliver to the idle server thread `serverTid`: look up the server's
      connection, remember a blocking client, ready the server thread, then
      hand over. When remembering or readying fails, thread `handBack` is
      returned to the server's idle list. */
  function Deliver(cfg: Config, ss: Services, pid: PID, thread: TID, sidx: SIdx, serverPid: PID, serverTid: TID,
                   message: Message, clientAddr: Option<nat>, handBack: TID): (r: Reply)
    ensures forall c | c in r.calls && c.ReturnAvailableThread? :: c == ReturnAvailableThread(sidx, handBack) && r.result.Failure?
    ensures forall c | c in r.calls && c.RememberServerMessage? ::
      c == RememberServerMessage(sidx, pid, thread, message, clientAddr) && message.IsBlocking()
    ensures forall c | c in r.calls :: !c.QueueServerMessage?
    ensures r.result.Success? && message.IsBlocking() && cfg.baremetal ==>
      r.result.value.Message? && r.result.value.envelope.body == message
    ensures r.result.Success? && message.IsBlocking() && !cfg.baremetal ==> r.result.value == BlockedProcess
    ensures r.result.Success? && !message.IsBlocking() ==> r.result.value == Ok
    ensures r.result.Success? ==> ReadyThread(serverPid, serverTid) in r.calls
    ensures r.result.Success? <==> AllGranted(ss, r.calls)
    ensures ss.respond(ServerCid(sidx)).Refused? ==> r == Reply([ServerCid(sidx)], Failure(ss.respond(ServerCid(sidx)).error))
    ensures
      var remember := RememberServerMessage(sidx, pid, thread, message, clientAddr);
      ss.respond(ServerCid(sidx)).Granted? && message.IsBlocking() && ss.respond(remember).Refused? ==>
        r.result == Failure(ss.respond(remember).error)
    ensures
      var remember := RememberServerMessage(sidx, pid, thread, message, clientAddr);
      var ready := ReadyThread(serverPid, serverTid);
      ss.respond(ServerCid(sidx)).Granted? && (message.IsBlocking() ==> ss.respond(remember).Granted?) ==>
        if ss.respond(ready).Refused? then r.result == Failure(ss.respond(ready).error)
        else
          var idx := if message.IsBlocking() then ss.respond(remember).value else 0;
          var envelope := Envelope(SenderID(ss.respond(ServerCid(sidx)).value, idx), message);
          r.result == HandOver(cfg, ss, pid, thread, serverPid, serverTid, envelope, message.IsBlocking()).result
  {
    var blocking := message.IsBlocking();
    var cidCall := ServerCid(sidx);
    match ss.respond(cidCall)
    case Refused(e) =>
      assert [cidCall][0] == cidCall;
      Reply([cidCall], Failure(e))
    case Granted(serverCid) =>
      var remember := RememberServerMessage(sidx, pid, thread, message, clientAddr);
      var remembered := if blocking then ss.respond(remember) else Granted(0);
      var prefix := if blocking then [cidCall, remember] else [cidCall];
      match remembered
      case Refused(e) =>
        assert (prefix + [ReturnAvailableThread(sidx, handBack)])[1] == remember;
        Reply(prefix + [ReturnAvailableThread(sidx, handBack)], Failure(e))
      case Granted(idx) =>
        var w := ReadyAndHandOver(cfg, ss, pid, thread, sidx, serverPid, serverTid,
                                  Envelope(SenderID(serverCid, idx), message), blocking, handBack);
        assert AllGranted(ss, prefix);
        AllGrantedAppend(ss, prefix, w.calls);
        assert (prefix + w.calls)[|prefix|] == w.calls[0];
        assert forall c | c in prefix + w.calls :: c in prefix || c in w.calls;
        Reply(prefix + w.calls, w.result)
  }

  /** Queue the message when no server thread is idle. A blocking client is
      then parked: on bare metal control goes to the parent's context 0 and
      the switch-to slot is cleared; hosted, the client is switched away. */
  function Enqueue(cfg: Config, slot: Slot, ss: Services, pid: PID, thread: TID, sidx: SIdx,
                   message: Message, clientAddr: Option<nat>): (s: Step<Slot>)
    ensures 0 < |s.calls| && s.calls[0] == QueueServerMessage(sidx, pid, thread, message, clientAddr)
    ensures forall c | c in s.calls[1..] :: c.ActivateProcessThread? || c.SwitchFromThread?
    ensures s.state != slot ==> s.state.None? && cfg.baremetal && message.IsBlocking()
    ensures s.result.Success? && !message.IsBlocking() ==> s.result.value == Ok && s.calls == [s.calls[0]]
    ensures s.result.Success? && message.IsBlocking() && cfg.baremetal ==> s.result.value == ResumeProcess && s.state.None?
    ensures s.result.Success? && message.IsBlocking() && !cfg.baremetal ==> s.result.value == BlockedProcess
    ensures s.result.Success? <==> AllGranted(ss, s.calls) && (message.IsBlocking() && cfg.baremetal ==> pid in ss.parentOf)
    ensures s.result.Failure? ==>
      var last := s.calls[|s.calls| - 1];
      && AllGranted(ss, s.calls[..|s.calls| - 1])
      && ss.respond(last).Refused?
      && s.result.error == (if last.ActivateProcessThread? then ProcessNotFound else ss.respond(last).error)
  {
    var queue := QueueServerMessage(sidx, pid, thread, message, clientAddr);
    match ss.respond(queue)
    case Refused(e) => Step(slot, [queue], Failure(e))
    case Granted(_) =>
      if !message.IsBlocking() then Step(slot, [queue], Success(Ok))
      else if cfg.baremetal then
        if pid !in ss.parentOf then Step(slot, [queue], Panic)
        else
          var activate := ActivateProcessThread(thread, ss.parentOf[pid], 0, false);
          assert [queue, activate][1] == activate;
          Step(None, [queue, activate], ResumeOr(ss.respond(activate)))
      else
        var away := SwitchFromThread(pid, thread);
        match ss.respond(away)
        case Refused(e) =>
          assert [queue, away][1] == away;
          Step(slot, [queue, away], Failure(e))
        case Granted(_) => Step(slot, [queue, away], Success(BlockedProcess))
  }

  /** `send_message(pid, thread, cid, message)`, handing thread `handBack`
      back to the server when delivery fails: the client's own thread as
      written (`handBackClient`), the taken server thread otherwise. */
  function SendMessageWith(cfg: Config, slot: Slot, ss: Services, pid: PID, thread: TID, cid: CID,
                           message: Message, handBackClient: bool): (s: Step<Slot>)
    ensures cid !in ss.sidxOfCid ==> s == Step(slot, [], Failure(ServerNotFound))
    ensures cid in ss.sidxOfCid && ss.sidxOfCid[cid] !in ss.servers ==> s == Step(slot, [], Panic)
    ensures s.state != slot ==> s.state.None? && cfg.baremetal && message.IsBlocking()
    ensures forall c | c in s.calls && c.ReturnAvailableThread? ::
      && s.result.Failure?
      && cid in ss.sidxOfCid && c.sidx == ss.sidxOfCid[cid] && c.sidx in ss.servers
      && ss.servers[c.sidx].available.Some?
      && c.tid == (if handBackClient then thread else ss.servers[c.sidx].available.value)
  {
    if cid !in ss.sidxOfCid then Step(slot, [], Failure(ServerNotFound))
    else
      var sidx := ss.sidxOfCid[cid];
      if sidx !in ss.servers then Step(slot, [], Panic)
      else
        var server := ss.servers[sidx];
        var clientAddr := ClientAddress(message);
        var t := Translate(ss, message, server.pid);
        if t.failure.Some? then Step(slot, t.calls, Failure(t.failure.value))
        else
          var take := TakeAvailableThread(sidx);
          match server.available
          case Some(serverTid) =>
            var handBack := if handBackClient then thread else serverTid;
            var d := Deliver(cfg, ss, pid, thread, sidx, server.pid, serverTid, t.message, clientAddr, handBack);
            Step(slot, t.calls + [take] + d.calls, d.result)
          case None =>
            var q := Enqueue(cfg, slot, ss, pid, thread, sidx, t.message, clientAddr);
            Step(q.state, t.calls + [take] + q.calls, q.result)
  }

  /** `send_message` as written: a failed delivery puts the client's own
      thread on the server's idle list. */
  function SendMessageAsWritten(cfg: Config, slot: Slot, ss: Services, pid: PID, thread: TID, cid: CID, message: Message): (s: Step<Slot>)
    ensures forall c | c in s.calls && c.ReturnAvailableThread? :: s.result.Failure? && c.tid == thread
  {
    SendMessageWith(cfg, slot, ss, pid, thread, cid, message, true)
  }

  /** `send_message` handing back the server thread it took: a thread put
      back on a server's idle list is always the idle thread of the server
      the connection leads to, and only a failed send puts one back. */
  function SendMessage(cfg: Config, slot: Slot, ss: Services, pid: PID, thread: TID, cid: CID, message: Message): (s: Step<Slot>)
    ensures forall c | c in s.calls && c.ReturnAvailableThread? ::
      && s.result.Failure?
      && cid in ss.sidxOfCid && c.sidx == ss.sidxOfCid[cid]
      && c.sidx in ss.servers && ss.servers[c.sidx].available == Some(c.tid)
  {
    SendMessageWith(cfg, slot, ss, pid, thread, cid, message, false)
  }

  /** What a successful `send_message` answers, by kind of message and by
      whether a server thread was idle: non-blocking sends answer `Ok`;
      hosted blocking sends block the client; on bare metal a blocking send
      delivered at once runs the server with the (translated) message, and
      one that had to be queued returns to the parent with the slot cleared. */
  lemma {:induction false} SendMessageOutcomes(cfg: Config, slot: Slot, ss: Services, pid: PID, thread: TID, cid: CID,
                                               message: Message, handBackClient: bool)
    requires cid in ss.sidxOfCid && ss.sidxOfCid[cid] in ss.servers
    ensures
      var s := SendMessageWith(cfg, slot, ss, pid, thread, cid, message, handBackClient);
      var server := ss.servers[ss.sidxOfCid[cid]];
      s.result.Success? ==>
        && TakeAvailableThread(ss.sidxOfCid[cid]) in s.calls
        && (!message.IsBlocking() ==> s.result.value == Ok && s.state == slot)
        && (message.IsBlocking() && !cfg.baremetal ==> s.result.value == BlockedProcess && s.state == slot)
        && (message.IsBlocking() && cfg.baremetal && server.available.Some? ==>
              s.result.value.Message? && SameMessage(message, s.result.value.envelope.body) && s.state == slot)
        && (message.IsBlocking() && cfg.baremetal && server.available.None? ==>
              s.result.value == ResumeProcess && s.state.None?)
    ensures
      var s := SendMessageWith(cfg, slot, ss, pid, thread, cid, message, handBackClient);
      var server := ss.servers[ss.sidxOfCid[cid]];
      AllGranted(ss, s.calls) && (message.IsBlocking() && cfg.baremetal && server.available.None? ==> pid in ss.parentOf) ==>
        s.result.Success?
  {
    var s := SendMessageWith(cfg, slot, ss, pid, thread, cid, message, handBackClient);
    var sidx := ss.sidxOfCid[cid];
    var server := ss.servers[sidx];
    var t := Translate(ss, message, server.pid);
    TranslateKeepsMessage(ss, message, server.pid);
    if s.result.Success? {
      assert t.failure.None?;
      assert SameMessage(message, t.message);
      assert t.message.IsBlocking() == message.IsBlocking();
      assert (t.calls + [TakeAvailableThread(sidx)])[|t.calls|] == TakeAvailableThread(sidx);
      assert s.calls[|t.calls|] == TakeAvailableThread(sidx);
    }
    if AllGranted(ss, s.calls) {
      AllGrantedAppend(ss, t.calls, [TakeAvailableThread(sidx)]);
      // Every call was granted, so the translation went through.
      var take := TakeAvailableThread(sidx);
      match server.available
      case Some(serverTid) =>
        var handBack := if handBackClient then thread else serverTid;
        var d := Deliver(cfg, ss, pid, thread, sidx, server.pid, serverTid, t.message, ClientAddress(message), handBack);
        AllGrantedAppend(ss, t.calls + [take], d.calls);
      case None =>
        var q := Enqueue(cfg, slot, ss, pid, thread, sidx, t.message, ClientAddress(message));
        AllGrantedAppend(ss, t.calls + [take], q.calls);
    }
  }

  /** Every message `send_message` remembers or queues for the server carries
      the client's own buffer address and the sending thread, so that a lent
      buffer can be returned to the right place. */
  lemma {:induction false} SendMessageRemembersClient(cfg: Config, slot: Slot, ss: Services, pid: PID, thread: TID, cid: CID,
                                                      message: Message, handBackClient: bool)
    ensures
      var s := SendMessageWith(cfg, slot, ss, pid, thread, cid, message, handBackClient);
      forall c | c in s.calls && (c.RememberServerMessage? || c.QueueServerMessage?) ::
        && c.returnTo == ClientAddress(message)
        && c.pid == pid && c.tid == thread
        && SameMessage(message, c.message)
  {
    var s := SendMessageWith(cfg, slot, ss, pid, thread, cid, message, handBackClient);
    if cid in ss.sidxOfCid && ss.sidxOfCid[cid] in ss.servers {
      var sidx := ss.sidxOfCid[cid];
      var server := ss.servers[sidx];
      var t := Translate(ss, message, server.pid);
      TranslateKeepsMessage(ss, message, server.pid);
      if t.failure.None? {
        var take := TakeAvailableThread(sidx);
        match server.available
        case Some(serverTid) =>
          var handBack := if handBackClient then thread else serverTid;
          var d := Deliver(cfg, ss, pid, thread, sidx, server.pid, serverTid, t.message, ClientAddress(message), handBack);
          assert s.calls == t.calls + [take] + d.calls;
          forall c | c in s.calls && (c.RememberServerMessage? || c.QueueServerMessage?)
            ensures c.returnTo == ClientAddress(message) && c.pid == pid && c.tid == thread && SameMessage(message, c.message)
          {
            assert c in d.calls;
          }
        case None =>
          var q := Enqueue(cfg, slot, ss, pid, thread, sidx, t.message, ClientAddress(message));
          assert s.calls == t.calls + [take] + q.calls;
          assert q.calls == [q.calls[0]] + q.calls[1..];
          forall c | c in s.calls && (c.RememberServerMessage? || c.QueueServerMessage?)
            ensures c.returnTo == ClientAddress(message) && c.pid == pid && c.tid == thread && SameMessage(message, c.message)
          {
            assert c in q.calls;
            assert c == q.calls[0];
          }
      }
    }
  }

  /** Services in which server 0 (process 5) has thread 1 idle, connection 0
      leads to it, and the server refuses to remember a message. */
  function RememberRefused(): Services {
    Services(map[0 := 0], map[], map[0 := Server(5, Some(1), map[], None)], map[], {},
             (c: Call) => if c.RememberServerMessage? then Refused(OutOfMemory) else Granted(0))
  }

  /** As written: when a blocking scalar from thread 3 cannot be remembered,
      `send_message` puts the client's thread 3 on the server's idle list,
      while the server thread 1 it took is never handed back. */
  lemma SendMessageAsWrittenHandsBackClientThread()
    ensures
      var ss := RememberRefused();
      var m := BlockingScalar(ScalarPayload(1, 0, 0, 0, 0));
      var s := SendMessageAsWritten(Config(false, 0), None, ss, 2, 3, 0, m);
      && ss.servers[0].available == Some(1)
      && s.calls == [TakeAvailableThread(0), ServerCid(0), RememberServerMessage(0, 2, 3, m, None), ReturnAvailableThread(0, 3)]
      && s.result == Failure(OutOfMemory)
      && SendMessage(Config(false, 0), None, ss, 2, 3, 0, m).calls[3] == ReturnAvailableThread(0, 1)
  {
  }
}

=== FILE: sequencing.dfy ===
/** The two ways the syscall layer strings subsystem calls together, and the
    page walk `(start..end).step_by(PAGE_SIZE)` that feeds them.

    - `Chain` is a run of `?`: stop at the first call that fails.
    - `KeepFirstError` is the page-unmapping loop: make every call, and
      remember only the first error. */
module Sequencing {
  import opened Optional
  import opened KernelTypes

  /** The calls a chain actually made and the error it stopped on, if any. */
  datatype Run = Run(made: seq<Call>, failure: Option<Error>)

  predicate AllGranted(ss: Services, calls: seq<Call>) {
    forall i | 0 <= i < |calls| :: ss.respond(calls[i]).Granted?
  }

  /** Two runs of calls are all granted exactly when each of them is. */
  lemma AllGrantedAppend(ss: Services, a: seq<Call>, b: seq<Call>)
    ensures AllGranted(ss, a + b) <==> AllGranted(ss, a) && AllGranted(ss, b)
  {
    if AllGranted(ss, a + b) {
      forall i | 0 <= i < |a| ensures ss.respond(a[i]).Granted? {
        assert (a + b)[i] == a[i];
      }
      forall i | 0 <= i < |b| ensures ss.respond(b[i]).Granted? {
        assert (a + b)[|a| + i] == b[i];
      }
    }
  }

  /** Call `i` is the first one refused, and it was refused with `e`. */
  predicate FirstRefusal(ss: Services, calls: seq<Call>, i: int, e: Error) {
    && 0 <= i < |calls|
    && ss.respond(calls[i]) == Refused(e)
    && forall k | 0 <= k < i :: ss.respond(calls[k]).Granted?
  }

  /** `a?; b?; c?` — make the calls in order until one is refused. */
  function Chain(ss: Services, calls: seq<Call>): (r: Run)
    ensures r.made <= calls
    ensures r.failure.None? <==> AllGranted(ss, calls)
    ensures r.failure.None? ==> r.made == calls
    ensures r.failure.Some? ==> FirstRefusal(ss, calls, |r.made| - 1, r.failure.value)
  {
    if calls == [] then Run([], None)
    else
      match ss.respond(calls[0])
      case Refused(e) => Run([calls[0]], Some(e))
      case Granted(_) =>
        var rest := Chain(ss, calls[1..]);
        RefusalAfterGranted(ss, calls, rest.made, rest.failure);
        Run([calls[0]] + rest.made, rest.failure)
  }

  /** Prepending a granted call shifts a run of the remaining calls by one. */
  lemma RefusalAfterGranted(ss: Services, calls: seq<Call>, made: seq<Call>, failure: Option<Error>)
    requires |calls| > 0 && ss.respond(calls[0]).Granted?
    requires made <= calls[1..]
    requires failure.None? <==> AllGranted(ss, calls[1..])
    requires failure.Some? ==> FirstRefusal(ss, calls[1..], |made| - 1, failure.value)
    ensures [calls[0]] + made <= calls
    ensures failure.None? <==> AllGranted(ss, calls)
    ensures failure.Some? ==> FirstRefusal(ss, calls, |made|, failure.value)
  {
    assert calls == [calls[0]] + calls[1..];
    if AllGranted(ss, calls[1..]) {
      forall i | 0 <= i < |calls| ensures ss.respond(calls[i]).Granted? {
        if i > 0 {
          assert calls[i] == calls[1..][i - 1];
        }
      }
    }
    if failure.Some? {
      forall k | 0 <= k < |made| ensures ss.respond(calls[k]).Granted? {
        if k > 0 {
          assert calls[k] == calls[1..][k - 1];
        }
      }
      assert calls[|made|] == calls[1..][|made| - 1];
    }
  }

  /** The unmapping loop: every call is made; the result is the first error,
      `if result.is_ok() { result = Err(e) }`. */
  function KeepFirstError(ss: Services, calls: seq<Call>): (r: Option<Error>)
    ensures r.None? <==> AllGranted(ss, calls)
    ensures r.Some? ==> exists i :: FirstRefusal(ss, calls, i, r.value)
  {
    if calls == [] then None
    else
      var last := |calls| - 1;
      var earlier := KeepFirstError(ss, calls[..last]);
      assert forall i | 0 <= i < last :: calls[..last][i] == calls[i];
      if earlier.Some? then
        assert exists i :: FirstRefusal(ss, calls, i, earlier.value) by {
          var i :| FirstRefusal(ss, calls[..last], i, earlier.value);
          assert FirstRefusal(ss, calls, i, earlier.value);
        }
        earlier
      else
        match ss.respond(calls[last])
        case Refused(e) =>
          assert FirstRefusal(ss, calls, last, e);
          Some(e)
        case Granted(_) => None
  }

  /** Making every call yields the same error as stopping at the first
      failure: the two loops differ only in which calls they make. */
  lemma {:induction false} KeepFirstErrorIsChainError(ss: Services, calls: seq<Call>)
    ensures KeepFirstError(ss, calls) == Chain(ss, calls).failure
  {
    var k, c := KeepFirstError(ss, calls), Chain(ss, calls);
    if k.Some? {
      var i :| FirstRefusal(ss, calls, i, k.value);
      FirstRefusalUnique(ss, calls, i, |c.made| - 1, k.value, c.failure.value);
    }
  }

  lemma FirstRefusalUnique(ss: Services, calls: seq<Call>, i: int, j: int, e: Error, f: Error)
    requires FirstRefusal(ss, calls, i, e) && FirstRefusal(ss, calls, j, f)
    ensures i == j && e == f
  {
  }

  /** The addresses `(from..end).step_by(PAGE_SIZE)` visits: `from` first,
      then one page further each time while below `end`. */
  function PageWalk(from: nat, end: nat): (pages: seq<nat>)
    ensures pages == [] <==> end <= from
    ensures pages != [] ==> pages[0] == from
    ensures forall i | 0 <= i < |pages| :: from <= pages[i] < end
    decreases end - from
  {
    if from < end then [from] + PageWalk(from + PAGE_SIZE, end) else []
  }

  /** Address `a` lies in `[from, end)` a whole number of pages after `from`. */
  predicate OnWalk(from: nat, end: nat, a: nat) {
    from <= a < end && PageAligned(a - from)
  }

  /** An address is visited exactly when it lies in `[from, end)` a whole
      number of pages after `from`. */
  lemma {:induction false} PageWalkCovers(from: nat, end: nat, a: nat)
    ensures a in PageWalk(from, end) <==> OnWalk(from, end, a)
    decreases end - from
  {
    if from < end {
      PageWalkCovers(from + PAGE_SIZE, end, a);
      assert PageWalk(from, end) == [from] + PageWalk(from + PAGE_SIZE, end);
      if from <= a {
        PageStep(a - from);
      }
    }
  }

  /** A distance is a whole number of pages when it is zero or one page more
      than a whole number of pages. */
  lemma PageStep(d: nat)
    ensures PageAligned(d) <==> d == 0 || (PAGE_SIZE <= d && PageAligned(d - PAGE_SIZE))
  {
  }

  /** One `unmap_page` call per address. */
  function UnmapCalls(pages: seq<nat>): (calls: seq<Call>)
    ensures |calls| == |pages|
    ensures forall i | 0 <= i < |pages| :: calls[i] == UnmapPage(pages[i])
  {
    seq(|pages|, i requires 0 <= i < |pages| => UnmapPage(pages[i]))
  }

  /** An `unmap_page` call is made for exactly the addresses of the walk
      from `from` to `end`. */
  lemma UnmapCallsOfWalk(from: nat, end: nat, a: nat)
    ensures UnmapPage(a) in UnmapCalls(PageWalk(from, end)) <==> OnWalk(from, end, a)
  {
    var pages := PageWalk(from, end);
    var calls := UnmapCalls(pages);
    PageWalkCovers(from, end, a);
    if UnmapPage(a) in calls {
      var i :| 0 <= i < |calls| && calls[i] == UnmapPage(a);
      assert pages[i] == a;
    }
    if a in pages {
      var i :| 0 <= i < |pages| && pages[i] == a;
      assert calls[i] == UnmapPage(a);
    }
  }
}

=== FILE: switch_to.dfy ===
/** The `SWITCHTO_CALLER` slot and the syscalls that drive it directly:
    `SwitchTo` fills it, a bare-metal `Yield` empties it and resumes the
    context it held, and `WaitEvent` clears it on the way back to the parent
    process. The slot is the kernel's one `static mut`, made explicit here. */
module SwitchToSlot {
  import opened Optional
  import opened KernelTypes

  /** The context that called `SwitchTo`, if any. */
  type Slot = Option<(PID, TID)>

  /** The outcome of `activate_process_thread` turned into the syscall result
      the way `.map(|_| Ok(ResumeProcess)).unwrap_or(Err(ProcessNotFound))`
      does: every failure becomes `ProcessNotFound`. */
  function ResumeOr(outcome: CallOutcome): (r: SysCallResult)
    ensures r == Success(ResumeProcess) || r == Failure(ProcessNotFound)
    ensures r.Success? <==> outcome.Granted?
  {
    if outcome.Granted? then Success(ResumeProcess) else Failure(ProcessNotFound)
  }

  /** `SwitchTo(new_pid, new_context)` from `(pid, tid)`: the slot must be
      empty (otherwise the kernel's `assert!` fires); it then remembers the
      caller, even if the activation fails, whose error is passed through
      unchanged. */
  function SwitchTo(slot: Slot, pid: PID, tid: TID, newPid: PID, newCtx: TID, ss: Services): (s: Step<Slot>)
    ensures slot.Some? <==> s.result == Panic
    ensures slot.Some? ==> s.state == slot && s.calls == []
    ensures slot.None? ==> s.state == Some((pid, tid))
    ensures slot.None? ==> s.calls == [ActivateProcessThread(tid, newPid, newCtx, true)]
    ensures slot.None? ==>
      match ss.respond(ActivateProcessThread(tid, newPid, newCtx, true))
      case Granted(_) => s.result == Success(ResumeProcess)
      case Refused(e) => s.result == Failure(e)
  {
    if slot.Some? then Step(slot, [], Panic)
    else
      var c := ActivateProcessThread(tid, newPid, newCtx, true);
      var result := match ss.respond(c)
        case Granted(_) => Success(ResumeProcess)
        case Refused(e) => Failure(e);
      Step(Some((pid, tid)), [c], result)
  }

  /** `Yield` from thread `tid`. Hosted, it changes nothing and answers `Ok`.
      On bare metal the slot must be full (otherwise `expect` panics); it is
      emptied and its context resumed. */
  function Yield(cfg: Config, slot: Slot, tid: TID, ss: Services): (s: Step<Slot>)
    ensures !cfg.baremetal ==> s == Step(slot, [], Success(Ok))
    ensures cfg.baremetal && slot.None? ==> s.result == Panic
    ensures cfg.baremetal && slot.Some? ==>
      && s.state.None?
      && s.calls == [ActivateProcessThread(tid, slot.value.0, slot.value.1, true)]
      && (s.result == Success(ResumeProcess) <==> ss.respond(s.calls[0]).Granted?)
      && (s.result.Failure? ==> s.result.error == ProcessNotFound)
  {
    if !cfg.baremetal then Step(slot, [], Success(Ok))
    else if slot.None? then Step(slot, [], Panic)
    else
      var (parentPid, parentCtx) := slot.value;
      var c := ActivateProcessThread(tid, parentPid, parentCtx, true);
      Step(None, [c], ResumeOr(ss.respond(c)))
  }

  /** `WaitEvent` from `(pid, tid)`: look up the parent (a missing process
      panics), clear the slot and activate the parent's context 0. */
  function WaitEvent(slot: Slot, pid: PID, tid: TID, ss: Services): (s: Step<Slot>)
    ensures pid !in ss.parentOf <==> s.result == Panic
    ensures pid in ss.parentOf ==>
      && s.state.None?
      && s.calls == [ActivateProcessThread(tid, ss.parentOf[pid], 0, false)]
      && (s.result.Success? ==> s.result.value == ResumeProcess)
      && (s.result == Success(ResumeProcess) <==> ss.respond(s.calls[0]).Granted?)
      && (s.result.Failure? ==> s.result.error == ProcessNotFound)
  {
    if pid !in ss.parentOf then Step(slot, [], Panic)
    else
      var c := ActivateProcessThread(tid, ss.parentOf[pid], 0, false);
      Step(None, [c], ResumeOr(ss.respond(c)))
  }

  /** A `SwitchTo` followed by a bare-metal `Yield` from the thread switched
      to hands control back to exactly the caller of `SwitchTo`, and leaves
      the slot empty again, ready for the next `SwitchTo`. */
  lemma {:induction false} YieldReturnsToSwitchToCaller(cfg: Config, pid: PID, tid: TID, newPid: PID, newCtx: TID, ss: Services)
    requires cfg.baremetal
    ensures
      var there := SwitchTo(None, pid, tid, newPid, newCtx, ss);
      var back := Yield(cfg, there.state, newCtx, ss);
      && back.calls == [ActivateProcessThread(newCtx, pid, tid, true)]
      && back.state.None?
      && back.result != Panic
      && SwitchTo(back.state, pid, tid, newPid, newCtx, ss).result != Panic
  {
    var there := SwitchTo(None, pid, tid, newPid, newCtx, ss);
    assert there.state == Some((pid, tid));
  }

  /** Two `SwitchTo`s with no `Yield` or `WaitEvent` in between panic the
      kernel, whatever the first one's activation did. */
  lemma SwitchToTwicePanics(slot: Slot, pid: PID, tid: TID, newPid: PID, newCtx: TID, ss: Services)
    requires slot.None?
    ensures SwitchTo(SwitchTo(slot, pid, tid, newPid, newCtx, ss).state, pid, tid, newPid, newCtx, ss).result == Panic
  {
  }

  /** `WaitEvent` is what frees the slot when a context switched to never
      yields: from any slot, and whatever its activation did, a `SwitchTo`
      after it does not panic and remembers its own caller. */
  lemma WaitEventFreesSlot(slot: Slot, pid: PID, tid: TID, callerPid: PID, callerTid: TID, newPid: PID, newCtx: TID, ss: Services)
    requires pid in ss.parentOf
    ensures
      var next := SwitchTo(WaitEvent(slot, pid, tid, ss).state, callerPid, callerTid, newPid, newCtx, ss);
      next.result != Panic && next.state == Some((callerPid, callerTid))
  {
  }
}

=== FILE: syscall.dfy ===
/** `handle_inner`: the dispatch of a system call from thread `tid` of
    process `pid` to the arm that handles it. The model state is what the
    modelled arms keep: the calling process's heap and the `SWITCHTO_CALLER`
    slot; everything else lives behind `Services`. */
module Syscall {
  import opened Optional
  import opened KernelTypes
  import SwitchToSlot
  import MemoryCalls
  import Heap
  import Replies
  import Send

  /** The system calls whose arms are modelled; `Unhandled` stands for every
      call that falls through to the final `panic!` arm (the blocking
      `SendMessage` among them). */
  datatype SysCall =
    | MapMemory(phys: Option<nat>, virt: Option<nat>, size: nat, flags: nat)
    | UnmapMemory(range: MemRange)
    | IncreaseHeap(delta: nat, flags: nat)
    | DecreaseHeap(decrease: nat)
    | SwitchTo(newPid: PID, newCtx: TID)
    | Yield
    | ReceiveMessage(sid: SID)
    | WaitEvent
    | ReturnMemory(sender: SenderID, buf: MemRange)
    | ReturnScalar1(sender: SenderID, arg: nat)
    | ReturnScalar2(sender: SenderID, arg1: nat, arg2: nat)
    | TrySendMessage(cid: CID, message: Message)
    | Unhandled

  /** The calling process's heap and the switch-to slot. */
  datatype State = State(heap: Heap.HeapInfo, caller: SwitchToSlot.Slot)

  /** Calls that may change the switch-to slot. */
  predicate TouchesSlot(call: SysCall) {
    call.SwitchTo? || call.Yield? || call.WaitEvent? || call.ReceiveMessage? || call.TrySendMessage?
  }

  function WithSlot(st: State, s: Step<SwitchToSlot.Slot>): Step<State> {
    Step(st.(caller := s.state), s.calls, s.result)
  }

  function WithHeap(st: State, s: Step<Heap.HeapInfo>): Step<State> {
    Step(st.(heap := s.state), s.calls, s.result)
  }

  function Stateless(st: State, r: Reply): Step<State> {
    Step(st, r.calls, r.result)
  }

  /** One system call, with the `DecreaseHeap` and `TrySendMessage` arms
      either as written or with the two corrections of this model's findings.
      Only the heap calls change the heap, only the scheduling and IPC calls
      change the slot, and a valid heap stays valid; an unhandled call
      panics with nothing done. */
  function HandleInnerWith(cfg: Config, st: State, ss: Services, pid: PID, tid: TID, call: SysCall, corrected: bool): (s: Step<State>)
    ensures !call.IncreaseHeap? && !call.DecreaseHeap? ==> s.state.heap == st.heap
    ensures s.state.caller != st.caller ==> TouchesSlot(call) && s.state.caller.Some? == call.SwitchTo?
    ensures st.heap.Valid() ==> s.state.heap.Valid()
    ensures s.state.heap.base == st.heap.base && s.state.heap.max == st.heap.max
    ensures call.Unhandled? ==> s == Step(st, [], Panic)
    ensures call.UnmapMemory? || call.IncreaseHeap? || call.ReturnScalar1? || call.ReturnScalar2? || call.ReturnMemory? ==>
      !s.result.Panic?
    ensures call.MapMemory? && call.phys.None? ==> !s.result.Panic?
  {
    match call
    case MapMemory(phys, virt, size, flags) =>
      Stateless(st, MemoryCalls.MapMemory(cfg, ss, pid, phys, virt, size, flags))
    case UnmapMemory(range) => Stateless(st, MemoryCalls.UnmapRange(ss, range))
    case IncreaseHeap(delta, flags) => WithHeap(st, Heap.IncreaseHeap(st.heap, delta, flags, ss))
    case DecreaseHeap(delta) =>
      WithHeap(st, if corrected then Heap.DecreaseHeap(st.heap, delta, ss) else Heap.DecreaseHeapAsWritten(st.heap, delta, ss))
    case SwitchTo(newPid, newCtx) => WithSlot(st, SwitchToSlot.SwitchTo(st.caller, pid, tid, newPid, newCtx, ss))
    case Yield => WithSlot(st, SwitchToSlot.Yield(cfg, st.caller, tid, ss))
    case ReceiveMessage(sid) => WithSlot(st, Replies.ReceiveMessage(cfg, st.caller, ss, pid, tid, sid))
    case WaitEvent => WithSlot(st, SwitchToSlot.WaitEvent(st.caller, pid, tid, ss))
    case ReturnMemory(sender, buf) => Stateless(st, Replies.ReturnMemory(ss, pid, tid, sender, buf))
    case ReturnScalar1(sender, arg) => Stateless(st, Replies.ReturnScalar(ss, pid, sender, arg))
    case ReturnScalar2(sender, arg1, arg2) => Stateless(st, Replies.ReturnScalar2(ss, pid, sender, arg1, arg2))
    case TrySendMessage(cid, message) =>
      WithSlot(st, if corrected then Send.SendMessage(cfg, st.caller, ss, pid, tid, cid, message)
                   else Send.SendMessageAsWritten(cfg, st.caller, ss, pid, tid, cid, message))
    case Unhandled => Step(st, [], Panic)
  }

  /** `handle_inner` as written: a shrink that the growth check refuses is
      `OutOfMemory`, and a failed send hands back the caller's own thread. */
  function HandleInner(cfg: Config, st: State, ss: Services, pid: PID, tid: TID, call: SysCall): (s: Step<State>)
    ensures call.DecreaseHeap? && PageAligned(call.decrease) && st.heap.size + call.decrease > st.heap.max ==>
      s == Step(st, [], Failure(OutOfMemory))
    ensures call.TrySendMessage? ==> forall c | c in s.calls && c.ReturnAvailableThread? :: c.tid == tid
  {
    HandleInnerWith(cfg, st, ss, pid, tid, call, false)
  }

  /** `handle_inner` with both corrections: a shrink is refused only when
      it is larger than the heap, and a failed send hands back the server
      thread it took. */
  function HandleInnerCorrected(cfg: Config, st: State, ss: Services, pid: PID, tid: TID, call: SysCall): (s: Step<State>)
    ensures call.DecreaseHeap? && PageAligned(call.decrease) ==>
      (s.result == Failure(OutOfMemory) <==> call.decrease > st.heap.size)
    ensures call.DecreaseHeap? && PageAligned(call.decrease) && call.decrease <= st.heap.size ==>
      s.state.heap.size == st.heap.size - call.decrease
  {
    HandleInnerWith(cfg, st, ss, pid, tid, call, true)
  }

  /** Through the dispatcher: on bare metal, a `SwitchTo` from `(pid, tid)`
      followed by a `Yield` from the context switched to resumes `(pid, tid)`,
      leaves the heap alone and empties the slot again. */
  lemma {:induction false} SwitchToThenYield(cfg: Config, st: State, ss: Services, pid: PID, tid: TID, newPid: PID, newCtx: TID)
    requires cfg.baremetal && st.caller.None?
    ensures
      var there := HandleInner(cfg, st, ss, pid, tid, SwitchTo(newPid, newCtx));
      var back := HandleInner(cfg, there.state, ss, newPid, newCtx, Yield);
      && there.state.caller == Some((pid, tid))
      && back.calls == [ActivateProcessThread(newCtx, pid, tid, true)]
      && back.state == st
  {
    SwitchToSlot.YieldReturnsToSwitchToCaller(cfg, pid, tid, newPid, newCtx, ss);
  }

  /** Through the dispatcher: growing the heap and then shrinking it by the
      same amount. As written, the shrink re-applies the growth bound to the
      grown heap, so the heap comes back exactly when it has room for twice
      `delta`, and otherwise the shrink is refused and the heap stays grown.
      With the corrected bound the heap always comes back. The slot is never
      touched. */
  lemma {:induction false} IncreaseThenDecrease(cfg: Config, st: State, ss: Services, pid: PID, tid: TID, delta: nat, flags: nat)
    requires PageAligned(delta) && st.heap.size + delta <= st.heap.max
    ensures
      var grown := HandleInner(cfg, st, ss, pid, tid, IncreaseHeap(delta, flags));
      var back := HandleInner(cfg, grown.state, ss, pid, tid, DecreaseHeap(delta));
      && (st.heap.size + delta + delta <= st.heap.max ==> back.state == st)
      && (st.heap.size + delta + delta > st.heap.max ==>
            back == Step(grown.state, [], Failure(OutOfMemory)) && back.state != st)
    ensures
      var grown := HandleInnerCorrected(cfg, st, ss, pid, tid, IncreaseHeap(delta, flags));
      HandleInnerCorrected(cfg, grown.state, ss, pid, tid, DecreaseHeap(delta)).state == st
  {
    Heap.DecreaseHeapUndoesIncrease(st.heap, delta, flags, ss);
  }
}
